=== FILE: README.md ===
# SeDAS bulk download, modelled in Dafny

This project models the bookkeeping core of the SeDAS Python client. Its centre is
`SeDASBulkDownload`, the bulk downloader. It takes search results and requests from
the long-term archive the products that have no download URL yet. A poller thread
moves those products to a ready queue once their requests complete. Worker threads
download from that queue into `prefix/supplierId.zip`. The model also covers the
parts of the `SeDASAPI` client that decide something:

- the token-error classifier;
- the status decoding;
- the search query;
- the URL strings;
- the login guards and token expiry;
- the error handler;
- the retry-at-most-once policy.

The project is organised as follows:

- `products.dfy` (module `Products`) holds the values both parts share:
  - a product, reduced to its supplier id and its optional `downloadUrl` entry;
  - Python truthiness;
  - the `product in d.items()` comparison;
  - `os.path.join` for a relative name;
  - `list.remove`.
- `engine.dfy` (module `Engine`) is the downloader as a sequential state machine over
  an `EngineState` record. Each thread's loop body is one atomic step:
  - one `add` call;
  - one sweep of the request poller;
  - one worker iteration;
  - `start`;
  - `shutdown`.

  The archive client is an oracle:
  - `request` answers the k-th call with an id, or raises;
  - `is_request_ready` maps an id to an optional URL;
  - `download` succeeds or raises.

  The properties are lemmas about these functions, and they cover whole runs of
  steps.
- `sedas_bulk_download.dfy`, `getthestuff_bulk_download.dfy` and
  `legacy_bulk_download.dfy` hold one `BulkDownload` class per copy of the downloader.
  The copies are `sedas_pyapi/bulk_download.py`, `getthestuff/bulk_download.py` and
  the top-level `bulk_download.py`. Each class keeps the object's fields and updates
  them in place with loops. Each method is proved to produce the state that the
  matching `Engine` function specifies.
- `sedas_api.dfy` (module `SedasApi`) holds the API client's pure helpers. It also has
  a `Client` class whose `Login` and `HandleError` methods update the token fields and
  the shared `headers` object.

The quirks of the code are modelled as written:

- **Key presence decides the route.** `add` checks whether the `downloadUrl` key is
  present, not whether it is truthy.
- **The duplicate guard never fires.** It compares a dictionary with `(key, value)`
  tuples, so it is never true.
- **The poller skips ids.** It removes from the list it is iterating. The id that
  slides into the freed slot is skipped, and a duplicated id ends in a `KeyError`.
- **A failed download leaks the counter.** The in-flight counter stays one higher, so
  `is_done` is false from then on.
- **The `queue.Empty` handler is dead.** `get()` is called without a timeout and
  blocks.
- **Token reuse is inverted.** `login` keeps a token only once its stored expiry has
  passed.
- **The search retry drops its source group.**
- **Request and status URLs have a double slash.** They contain `api//`.

## Model

| member | source | states |
|---|---|---|
| Products.HasUrlKey | sedas_pyapi/bulk_download.py:102 | `'downloadUrl' in product` holds iff the key is there, whatever its value: a `None` or empty URL still counts as present |
| Products.Truthy | sedas_pyapi/bulk_download.py:136 | `if download_url:` on the answer of `is_request_ready` fails exactly for `None` and the empty string |
| Products.SetUrl | sedas_pyapi/bulk_download.py:138 | setting `downloadUrl` makes the key present with that URL and keeps the supplier id |
| Products.Items | sedas_pyapi/bulk_download.py:106 | `items()` of the id-to-product map holds exactly the (id, product) pairs of the map and nothing else |
| Products.AlreadyRequested | sedas_pyapi/bulk_download.py:106 | the guard `product in self._pending_products.items()` is false for every product and every map |
| Products.JoinPath | sedas_pyapi/bulk_download.py:155 | the joined path starts with the prefix and ends with the name, and an empty prefix gives the name alone. A '/' separates a non-empty prefix from the name. Exactly one character is added iff the prefix is non-empty and does not already end in '/'; otherwise nothing is added |
| Products.TargetPath | sedas_pyapi/bulk_download.py:155 | the worker's file name starts with the prefix and ends in `supplierId` followed by `.zip`, with a '/' before the supplier id when the prefix is non-empty. Its length is that of prefix, supplier id and `.zip` together, plus one exactly when a separator is inserted, that is iff the prefix is non-empty and does not end in '/' |
| Products.RemoveFirstNoDup | sedas_pyapi/bulk_download.py:141 | on a list without duplicates, `list.remove(s[i])` deletes exactly position i, keeps the list free of duplicates and keeps every other element |
| Products.FirstIndex | sedas_pyapi/bulk_download.py:141 | the position `list.remove` deletes: it holds the element, and no earlier position does |
| Products.RemoveFirst | sedas_pyapi/bulk_download.py:141 | `list.remove(x)` removes exactly one copy of `x` (as multisets, the new list is the old one minus `x`) and keeps every element before its first occurrence in place |
| Products.RemoveFirstSplits | sedas_pyapi/bulk_download.py:141 | `list.remove(x)` deletes the first occurrence of `x` and nothing else: putting `x` back at that position gives the old list, in order, and no element before it is `x` |
| Engine.Start | sedas_pyapi/bulk_download.py:63-67 | `start` raises iff the threads already exist; either way they exist afterwards and nothing else changes |
| Engine.Initial | sedas_pyapi/bulk_download.py:41-52 | the fields `__init__` sets before it calls `start`: no queued product, no pending id or product, no download in flight (so `is_done` holds), no request made, not started, not shut down, and the given prefix and done queue |
| Engine.Constructed | sedas_pyapi/bulk_download.py:32-54 | after `__init__` the engine is started and not shut down, has the given prefix and done queue, holds no queued product, no pending id or product, no download in flight, and has made no request |
| Engine.Shutdown | sedas_pyapi/bulk_download.py:78-85 | `shutdown` sets the flag and leaves every other field unchanged |
| Engine.IsDone | sedas_pyapi/bulk_download.py:87-92 | `is_done` holds iff the ready queue and the pending id list are empty and the counter is zero |
| Engine.IsDoneIgnoresMap | sedas_pyapi/bulk_download.py:92 | `is_done` never depends on the id-to-product map, only on the list |
| Engine.SecondStartRaises | sedas_pyapi/bulk_download.py:32-67 | a freshly constructed downloader is started, empty, done and not shut down; an explicit `start` then raises and changes nothing |
| Engine.Notify | sedas_pyapi/bulk_download.py:159-160 | a completion is appended to the done queue exactly when one was given, and the old entries are kept in front of it |
| Engine.Routed | sedas_pyapi/bulk_download.py:100-103 | the products of a batch that go to the ready queue all have the key, and there are no more of them than the batch holds |
| Engine.Unrouted | sedas_pyapi/bulk_download.py:104-109 | the products of a batch that are requested all lack the key, and there are no more of them than the batch holds |
| Engine.RoutingSplitsBatch | sedas_pyapi/bulk_download.py:100-109 | every product of a batch is either queued or requested and none is both: as multisets the queued part and the requested part make up the whole batch |
| Engine.Ingest | sedas_pyapi/bulk_download.py:102-109 | one iteration of the `add` loop. A product with the key raises nothing and makes no request. A product without it is requested exactly once, and the queue is left alone. The iteration raises iff that request raises; otherwise the id is appended to the list and mapped to the product |
| Engine.Add | sedas_pyapi/bulk_download.py:100-109 | `add` leaves the counter, the flags, the done queue and the prefix alone; when it raises, at least one request was made |
| Engine.AddOne | sedas_pyapi/bulk_download.py:100-109 | a product with the `downloadUrl` key is queued without a request, whatever its value; one without it makes exactly one request, whose id is appended to the list and mapped to the product; a raising request records the call and stops |
| Engine.AddQueuesRouted | sedas_pyapi/bulk_download.py:100-103 | a batch that raises nothing appends to the ready queue exactly the products with the key, in order |
| Engine.AddRequestsUnrouted | sedas_pyapi/bulk_download.py:100-109 | a batch that raises nothing requests exactly the products without the key, in order, and adds one pending id per request |
| Engine.AddFrame | sedas_pyapi/bulk_download.py:100-109 | `add` only extends the history of requests, by at most one call per product without the key |
| Engine.AddTwiceRequestsTwice | sedas_pyapi/bulk_download.py:106-109 | adding the same product twice makes two requests and appends two ids, because the duplicate guard never suppresses a request |
| Engine.AddKeepsConsistent | sedas_pyapi/bulk_download.py:107-109 | when the archive issues fresh ids, `add` keeps the pending list free of duplicates and keeps its ids equal to the map's keys |
| Engine.IngestKeepsConsistent | sedas_pyapi/bulk_download.py:107-109 | one requested product keeps the list and the map in agreement and keeps the issued ids fresh |
| Engine.SweepConserves | sedas_pyapi/bulk_download.py:132-141 | the sum of the ready queue's and the pending list's lengths is unchanged, and the old queue is a prefix of the new one. No id is added to the map, each remaining entry keeps its product, and nothing else changes |
| Engine.SweepQueuesOnlyReady | sedas_pyapi/bulk_download.py:136-141 | every product a sweep appends to the ready queue is the product of an id whose check returned a truthy URL, with `downloadUrl` set to that URL, and that id has left the map |
| Engine.SweepQueuesEveryRemoved | sedas_pyapi/bulk_download.py:136-141 | every id a sweep removes from the map had a check returning a truthy URL, and its product, with `downloadUrl` set to that URL, is among the products appended to the ready queue |
| Engine.SweepKeepsQueue | sedas_pyapi/bulk_download.py:132-141 | a sweep moves entries from the pending list to the ready queue one for one: the two lengths add up to the same total, and the old queue is a prefix of the new one |
| Engine.SweepShrinksMap | sedas_pyapi/bulk_download.py:132-141 | a sweep adds no id to the map, and every entry it keeps has its old product |
| Engine.PromoteRemovesFirst | sedas_pyapi/bulk_download.py:138-141 | promotion deletes the first occurrence of the id from the list, keeping the other ids in order, and changes no field but the queue, the list and the map |
| Engine.PromoteKeepsNoDup | sedas_pyapi/bulk_download.py:141 | promoting an id of a list without duplicates leaves a list without duplicates |
| Engine.PromoteKeepsEarlier | sedas_pyapi/bulk_download.py:141 | on a list without duplicates, promoting the id at position i leaves every earlier position holding the same id |
| Engine.PromoteShiftsMissing | sedas_pyapi/bulk_download.py:139-141 | on a list without duplicates, an id after position i that has no map entry once position i is promoted sat one position further on, and had no map entry before either |
| Engine.SweepCrashNeedsMissingId | sedas_pyapi/bulk_download.py:132-141 | a sweep from position i raises `KeyError` only if the list holds some id twice or some list id at position i or later has no map entry |
| Engine.PromoteKeepsConsistent | sedas_pyapi/bulk_download.py:138-141 | promoting the id at position i of a consistent state removes exactly that position from the list and keeps the list and the map in agreement |
| Engine.SweepConsistent | sedas_pyapi/bulk_download.py:129-141 | on a consistent state a sweep never raises `KeyError` and leaves the list and the map in agreement |
| Engine.SweepKeepsUnready | sedas_pyapi/bulk_download.py:135-141 | an id whose check returns nothing or an empty URL stays in the map with its product, so an id leaves only when its check returned a truthy URL |
| Engine.SweepKeepsPassed | sedas_pyapi/bulk_download.py:132-141 | ids at list positions the sweep has already passed are not looked at again and stay pending |
| Engine.PollSkipsSlidingId | sedas_pyapi/bulk_download.py:129-141 | when the first pending id is promoted, it leaves the list, and the second id slides into its slot and is not checked in that sweep, even if ready |
| Engine.PollSingleReady | sedas_pyapi/bulk_download.py:132-141 | a sweep over a single ready id queues its product with the returned URL and empties both the list and the map |
| Engine.SweepFrom | sedas_pyapi/bulk_download.py:132-141 | a sweep from list position i never reports the poller stopped and never shrinks the ready queue. It leaves the counter, the request history, the done queue, the flags and the prefix alone |
| Engine.Promote | sedas_pyapi/bulk_download.py:136-141 | the promoted product is appended to the ready queue with its supplier id and the new URL, the id leaves the map and nothing else does, and the list loses one entry (which one, and that no other field changes, is `Engine.PromoteRemovesFirst`) |
| Engine.Poll | sedas_pyapi/bulk_download.py:129-141 | a poller round reports stopped iff the flag is set, and then changes nothing; it never changes the counter |
| Engine.WorkerStepEffects | sedas_pyapi/bulk_download.py:149-162 | a worker takes the oldest queued product and names the file `prefix/supplierId.zip`. On success the counter is unchanged overall and the completion goes to the done queue, if one was given. On failure the counter stays one higher and nothing is reported |
| Engine.WorkerStep | sedas_pyapi/bulk_download.py:149-162 | a worker round stops iff the flag is set and blocks iff the queue is empty, changing nothing in either case. It never touches the list, the map, the flags, the prefix or the request history. The counter ends one higher exactly when the download raised |
| Engine.ApplyKeepsCounter | sedas_pyapi/bulk_download.py:100-162 | no operation ever lowers the in-flight counter below its value before the operation |
| Engine.RunKeepsCounter | sedas_pyapi/bulk_download.py:100-162 | no sequence of operations lowers the counter below its starting value |
| Engine.LeakIsPermanent | sedas_pyapi/bulk_download.py:87-92 | once a download has raised, `is_done` stays false after any sequence of operations |
| Engine.MockRequest | tests/test_bulk_download.py:35-36 | the test client's `request` never raises and answers with the product's supplier id as the request id, whatever the call |
| Engine.MockReady | tests/test_bulk_download.py:38-39 | the test client's `is_request_ready` reports every request ready, with the truthy URL `a-mock-download-url.html` |
| Engine.ErroredRequestScenario | tests/test_bulk_download.py:12-39 | with the test's mock client, "test" is requested, promoted with the mock URL and taken by a worker whose download raises for `/tmp/test.zip`; the counter stays 1, so the test's `is_done` wait never ends |
| Engine.DuplicateAddCrashesPoller | sedas_pyapi/bulk_download.py:106-141 | with the mock's ids, adding a product twice gives the id twice in the list but once in the map. The first sweep promotes one copy and leaves the other. The next sweep raises `KeyError` |
| SedasBulkDownload.BulkDownload.constructor | sedas_pyapi/bulk_download.py:32-54 | a new downloader is empty, has the given prefix and done queue, and is already started |
| SedasBulkDownload.BulkDownload.Start | sedas_pyapi/bulk_download.py:56-67 | the new state and the raise flag are those of `Engine.Start` |
| SedasBulkDownload.BulkDownload.Shutdown | sedas_pyapi/bulk_download.py:78-85 | only the shutdown flag changes, and it becomes true |
| SedasBulkDownload.BulkDownload.IsDone | sedas_pyapi/bulk_download.py:87-92 | true iff the ready queue is empty, the pending id list is empty and the counter is zero |
| SedasBulkDownload.BulkDownload.Add | sedas_pyapi/bulk_download.py:94-109 | the loop leaves the fields as `Engine.Add` specifies and reports whether a request raised |
| SedasBulkDownload.BulkDownload.Requests | sedas_pyapi/bulk_download.py:124-142 | one poller round stops when shut down; otherwise the index loop leaves the fields as `Engine.Poll` specifies, including the `KeyError` outcome |
| SedasBulkDownload.BulkDownload.Downloads | sedas_pyapi/bulk_download.py:144-163 | one worker round leaves the fields and the outcome as `Engine.WorkerStep` specifies |
| GetthestuffBulkDownload.BulkDownload.constructor | getthestuff/bulk_download.py:16-35 | a new downloader is empty, has the given prefix, has no done queue and is already started |
| GetthestuffBulkDownload.BulkDownload.Start | getthestuff/bulk_download.py:37-54 | the new state and the raise flag are those of `Engine.Start` |
| GetthestuffBulkDownload.BulkDownload.Shutdown | getthestuff/bulk_download.py:56-63 | only the shutdown flag changes |
| GetthestuffBulkDownload.BulkDownload.IsDone | getthestuff/bulk_download.py:65-70 | true iff the queue, the pending id list and the counter are all empty or zero |
| GetthestuffBulkDownload.BulkDownload.Add | getthestuff/bulk_download.py:72-87 | the loop leaves the fields as `Engine.Add` specifies |
| GetthestuffBulkDownload.BulkDownload.Requests | getthestuff/bulk_download.py:89-107 | one poller round leaves the fields as `Engine.Poll` specifies |
| GetthestuffBulkDownload.BulkDownload.Downloads | getthestuff/bulk_download.py:109-124 | one worker round leaves the fields as `Engine.WorkerStep` specifies, with no done queue to notify |
| LegacyBulkDownload.BulkDownload.constructor | bulk_download.py:9-31 | a new downloader is empty, keeps the verbose flag, has no done queue and is already started |
| LegacyBulkDownload.BulkDownload.Start | bulk_download.py:33-44 | the new state and the raise flag are those of `Engine.Start` |
| LegacyBulkDownload.BulkDownload.Shutdown | bulk_download.py:46-47 | only the shutdown flag changes |
| LegacyBulkDownload.BulkDownload.IsDone | bulk_download.py:49-50 | true iff the queue, the pending id list and the counter are all empty or zero |
| LegacyBulkDownload.BulkDownload.Add | bulk_download.py:52-62 | the loop leaves the fields as `Engine.Add` specifies |
| LegacyBulkDownload.BulkDownload.Requests | bulk_download.py:64-79 | one poller round leaves the fields as `Engine.Poll` specifies; for products that carry a supplier id, the verbose flag has no effect on the state |
| LegacyBulkDownload.BulkDownload.Downloads | bulk_download.py:81-94 | one worker round leaves the fields as `Engine.WorkerStep` specifies |
| SedasApi.IsTokenError | sedas_pyapi/sedas_api.py:305-315 | true iff the code is 401 or 403, or it is 400 with the message "User token does not exist"; a 400 without a message is not a token error |
| SedasApi.RequestUrl | sedas_pyapi/sedas_api.py:260 | the request URL is the base URL, a second slash, `request/` and the supplier id |
| SedasApi.StatusUrl | sedas_pyapi/sedas_api.py:277 | the status URL is the base URL, a second slash, `request?ids=` and the id |
| SedasApi.ProductUrl | sedas_pyapi/sedas_api.py:212 | the product URL is the search URL, `/products?ids=` and the id |
| SedasApi.RequestedSupplier | sedas_pyapi/sedas_api.py:260 | any supplier id read back from a URL rebuilds that URL |
| SedasApi.RequestUrlRoundTrip | sedas_pyapi/sedas_api.py:260-277 | the supplier id is read back from its request URL, and a request URL is never a status URL |
| SedasApi.RequestUrlInjective | sedas_pyapi/sedas_api.py:260 | two supplier ids give the same request URL only when they are equal |
| SedasApi.DecodeStatus | sedas_pyapi/sedas_api.py:280-283 | the first entry's `downloadUrl` is returned exactly when the list is non-empty and that entry has the key; otherwise None |
| SedasApi.DecodeStatusFirstEntryOnly | sedas_pyapi/sedas_api.py:280-283 | entries after the first never matter; an empty list gives None; an empty URL is returned as is and is falsy for the poller |
| SedasApi.SearchQuery | sedas_pyapi/sedas_api.py:111-122 | the query always holds `sensorFilters` (`type` = sensor), `filters`, `aoiWKT`, `start` and `stop`; `satelliteName` and `sourceGroup` are present iff non-empty, and there are no other keys |
| SedasApi.RetryArgs | sedas_pyapi/sedas_api.py:129-138 | the retried search passes every argument on except the source group, which falls back to empty |
| SedasApi.SearchRetryDropsSourceGroup | sedas_pyapi/sedas_api.py:129-138 | the retried search posts the first query minus `sourceGroup` |
| SedasApi.DownloadUrl | sedas_pyapi/sedas_api.py:241-244 | `download_request` finds a usable URL iff the key is present with a non-empty value; a missing key is a `KeyError`, and a falsy value an `AttributeError` |
| SedasApi.EmptyUrlIsQueuedButNotDownloadable | sedas_pyapi/bulk_download.py:102-103 | a product promoted by the poller always has a usable URL; a product added with an empty `downloadUrl` is queued without a request and then fails the check |
| SedasApi.Headers.constructor | sedas_pyapi/sedas_api.py:37 | the shared headers start with content type `application/json` and no Authorization |
| SedasApi.LoginStep | sedas_pyapi/sedas_api.py:47-81 | a login returns early iff a token is held and now is later than the stored expiry. Otherwise blank credentials raise `ValueError`, exactly then and with nothing changed. A success stores the token, the expiry `validUntil - 5` and the header "Token <token>". A rejection raises the server's error and changes nothing |
| SedasApi.TokenReuseIsInverted | sedas_pyapi/sedas_api.py:55-74 | right after a login, the next login authenticates again while the token is still valid and keeps the token only after its stored expiry |
| SedasApi.ErrorStep | sedas_pyapi/sedas_api.py:288-302 | a non-token error is raised again with nothing changed; a token error clears the token and logs in again. The handler recovers iff the credentials are non-blank and the login succeeds. It then stores the new token, the expiry `validUntil - 5` and the header. A token error is never raised again: a failed re-login leaves the token cleared and raises the login's own error, the `ValueError` for blank credentials or the authentication `HTTPError` |
| SedasApi.Client.constructor | sedas_pyapi/sedas_api.py:42-44 | a client stores its credentials and the shared headers, and has no token |
| SedasApi.Client.Login | sedas_pyapi/sedas_api.py:47-81 | the client's token fields, the shared header and the outcome are those of `LoginStep` |
| SedasApi.Client.HandleError | sedas_pyapi/sedas_api.py:288-302 | the client's fields, the shared header and the outcome are those of `ErrorStep` |
| SedasApi.Call | sedas_pyapi/sedas_api.py:262-302 | a call makes one attempt, or two when retrying is allowed, and makes the second only after a token error that `_error_handling` recovered from. It returns an answer only as its last attempt gave it. It returns None only when its last attempt failed with a token error that was recovered from. It raises an `HTTPError` only when its last attempt failed with that error and the error is not a token error. The login inside `_error_handling` raises only when the last attempt failed with a token error that was not recovered from |
| SedasApi.RetryOnce | sedas_pyapi/sedas_api.py:262-267 | a recovered token error on the first attempt is retried exactly once. A recovered token error on that retry yields None. A non-token error is raised at once. An answer is returned as is |

## Left out

- Threads, daemon flags, `time.sleep` and the interleavings of the poller, the workers and the caller are not modelled. Each loop body is one atomic step, and the properties hold for any order of steps. Three consequences follow. The model reads the shutdown flag in the same step as the sweep or download it guards. The source reads the flag before sleeping (sedas_pyapi/bulk_download.py:129-130, 149-153), so one more sweep or download can follow `shutdown()`, which the model cannot reach. `Engine.Run` also keeps stepping a poller or worker whose thread has already ended with an exception. Finally, nothing bounds the number of workers by `parallel`.
- Products.Product: every product has a string `supplierId`, so the `KeyError` paths for a product without one are not modelled. Such a product would end the poller at the debug message (sedas_pyapi/bulk_download.py:134). It would leak the counter at the file name (:155, after the increment at :154). It would also raise from `request` inside `add` (sedas_pyapi/sedas_api.py:260). In the earliest copy it raises in the poller only when verbose (bulk_download.py:70-71). Search results from the archive always carry a supplier id.
- The `_monitor` thread and all logging and printing are left out, because they change no state.
- HTTP requests, JSON encoding and decoding, and the file copy in `download` are not modelled. Responses are given as decoded values or as oracle answers.
- `datetime.strptime` and the wall clock are not modelled. Times are whole minutes.
- Products.JoinPath: covers only a relative name. `os.path.join` would discard the prefix for an absolute name, which a supplier id plus `.zip` never is in practice.
- The legacy client copies `sedas_api.py` and `getthestuff/sedas_api.py`, and `query.py`, are not part of this model. They are earlier versions of `sedas_pyapi/sedas_api.py` and differ from it in several ways. Their `login` keeps no token expiry, never reuses a token and has no blank-credential guard (sedas_api.py:23-37, getthestuff/sedas_api.py:31-50). They have no `_error_handling`, `_is_token_error` or retry: an HTTP error is printed and raised again, or not caught at all in `sedas_api.py`'s `request` and `is_request_ready`. Their `search` takes no satellite name or source group. Their status decoding demands `len(decoded) > 1` (sedas_api.py:124, getthestuff/sedas_api.py:166).
- The `__main__` example scripts and `setup.py` are not part of this model.
- `search_sar` and `search_optical` are not modelled. They only fix the sensor argument of `SearchQuery`.
- SedasApi.Client.constructor: does not call `login`. The constructor's login is a separate `Login` call.
- SedasApi.Call: takes whether `_error_handling` recovered as part of each attempt's answer instead of computing it with `ErrorStep`. The `login()` at the head of each call, which may raise, is also left out.
- Engine.Ingest: a `request` that returns None after a recoverable retry is not modelled. Such a call would append a None id to the list. The oracle returns an id or raises.
- Engine.Poll: the readiness oracle never raises. An `is_request_ready` that raises would end the poller thread.
- Engine.SweepFrom: the readiness oracle is one fixed function for a whole sweep, while the source calls `is_request_ready` afresh at each visit (sedas_pyapi/bulk_download.py:135). So an id listed twice gets the same answer at both visits in the model, but may get different answers in the source.
- Python's `None` and the empty string as `downloadUrl` values are both `Present("")`. The code treats them alike: both route by key and both fail `download_request`.
- Product dictionaries are values here. The code sets `downloadUrl` in place on the dictionary it was given, so the change is visible to the caller's search results. That aliasing is not modelled.
- Engine.SweepConsistent: proved only for states whose list and map agree. `Engine.DuplicateAddCrashesPoller` shows the `KeyError` that a disagreeing state can reach.

=== FILE: engine.dfy ===
/**
  The bookkeeping of a SeDASBulkDownload object as a sequential state machine.
  Each background thread is replaced by one atomic step: one sweep of the
  request poller, one iteration of a download worker. The archive client is
  an oracle: `request` answers the k-th call with a request id or raises,
  `is_request_ready` maps a request id to an optional URL, and `download`
  succeeds or raises.

  The three classes that model the three copies of the engine are proved
  against the functions of this module.
 */
module Engine {
  import opened Products

  /** The fields of SeDASBulkDownload that its operations read and update. */
  datatype EngineState = EngineState(
    ready: seq<Product>,                     // _pending_download, a FIFO queue
    pendingIds: seq<string>,                 // _pending_request_ids
    pendingProducts: map<string, Product>,   // _pending_products: request id -> product
    current: int,                            // _current_downloads
    shutDown: bool,                          // _shut_down
    started: bool,                           // _requested_thread has been set
    done: Option<seq<Completion>>,           // _done_queue, when one was given
    prefix: string,                          // _prefix
    requested: seq<Product>)                 // the products passed to client.request, in call order

  /** The answer of the k-th `client.request` call. */
  datatype RequestAnswer = Issued(id: string) | Raised

  datatype AddResult = AddResult(state: EngineState, raised: bool)
  datatype StartResult = StartResult(state: EngineState, raised: bool)

  datatype PollOutcome = PollerStopped | SweepFinished | SweepCrashed
  datatype SweepResult = SweepResult(state: EngineState, outcome: PollOutcome)

  datatype WorkerOutcome =
    | WorkerStopped
    | WorkerBlocked
    | Downloaded(path: string)
    | DownloadRaised(path: string)
  datatype WorkerResult = WorkerResult(state: EngineState, outcome: WorkerOutcome)

  /** The state `__init__` builds before it calls `start`. */
  function Initial(prefix: string, done: Option<seq<Completion>>): (r: EngineState)
    ensures IsDone(r) && r.pendingProducts == map[] && r.requested == []
    ensures !r.started && !r.shutDown && r.prefix == prefix && r.done == done
  {
    EngineState([], [], map[], 0, false, false, done, prefix, [])
  }

  /** `start`: raises ChildProcessError when the threads were already started. */
  function Start(s: EngineState): (r: StartResult)
    ensures r.raised <==> s.started
    ensures r.state.started
    ensures r.raised ==> r.state == s
    ensures r.state == s.(started := true)
  {
    if s.started then StartResult(s, true) else StartResult(s.(started := true), false)
  }

  /** A freshly constructed engine: `__init__` ends by calling `start`, so
      it is started, holds no work, is not shut down and has made no request. */
  function Constructed(prefix: string, done: Option<seq<Completion>>): (r: EngineState)
    ensures r.started && !r.shutDown && r.prefix == prefix && r.done == done
    ensures r.ready == [] && r.pendingIds == [] && r.pendingProducts == map[]
    ensures r.current == 0 && r.requested == []
  {
    Start(Initial(prefix, done)).state
  }

  /** `shutdown` raises the flag and changes nothing else. */
  function Shutdown(s: EngineState): (r: EngineState)
    ensures r.shutDown
    ensures r.ready == s.ready && r.pendingIds == s.pendingIds && r.pendingProducts == s.pendingProducts
    ensures r.current == s.current && r.started == s.started && r.done == s.done
    ensures r.prefix == s.prefix && r.requested == s.requested
  {
    s.(shutDown := true)
  }

  /** `is_done`: the ready queue, the list of pending ids (not the map) and
      the in-flight counter are all empty. */
  function IsDone(s: EngineState): (r: bool)
    ensures r <==> |s.ready| == 0 && |s.pendingIds| == 0 && s.current == 0
  {
    s.ready == [] && s.pendingIds == [] && s.current == 0
  }

  /** The products of a batch that carry the `downloadUrl` key, in order. */
  function Routed(ps: seq<Product>): (r: seq<Product>)
    ensures forall p :: p in r ==> HasUrlKey(p)
    ensures |r| <= |ps|
  {
    if ps == [] then [] else (if HasUrlKey(ps[0]) then [ps[0]] else []) + Routed(ps[1..])
  }

  /** The products of a batch that lack the `downloadUrl` key, in order. */
  function Unrouted(ps: seq<Product>): (r: seq<Product>)
    ensures forall p :: p in r ==> !HasUrlKey(p)
    ensures |r| <= |ps|
  {
    if ps == [] then [] else (if HasUrlKey(ps[0]) then [] else [ps[0]]) + Unrouted(ps[1..])
  }

  /** One iteration of the `for product in search_results` loop of `add`:
      a product with the key goes to the ready queue; otherwise (the
      duplicate guard never holds) it is requested, and the returned id goes
      to the list and the map. */
  function Ingest(s: EngineState, p: Product, request: (nat, Product) -> RequestAnswer): (r: AddResult)
    ensures HasUrlKey(p) ==> !r.raised && r.state.ready == s.ready + [p] &&
                             r.state.requested == s.requested && r.state.pendingIds == s.pendingIds
    ensures !HasUrlKey(p) ==> r.state.requested == s.requested + [p] && r.state.ready == s.ready &&
                              (r.raised <==> request(|s.requested|, p).Raised?)
    ensures !r.raised && !HasUrlKey(p) ==>
      r.state.pendingIds == s.pendingIds + [request(|s.requested|, p).id] &&
      r.state.pendingProducts == s.pendingProducts[request(|s.requested|, p).id := p]
  {
    if HasUrlKey(p) then AddResult(s.(ready := s.ready + [p]), false)
    else if AlreadyRequested(p, s.pendingProducts) then AddResult(s, false)
    else
      match request(|s.requested|, p)
      case Raised => AddResult(s.(requested := s.requested + [p]), true)
      case Issued(id) =>
        AddResult(s.(requested := s.requested + [p],
                     pendingIds := s.pendingIds + [id],
                     pendingProducts := s.pendingProducts[id := p]), false)
  }

  /** `add(search_results)`: every product in turn; a raising request ends
      the loop, with the earlier products already processed. */
  function Add(s: EngineState, ps: seq<Product>, request: (nat, Product) -> RequestAnswer): (r: AddResult)
    ensures r.state.current == s.current && r.state.shutDown == s.shutDown && r.state.started == s.started
    ensures r.state.done == s.done && r.state.prefix == s.prefix
    ensures r.raised ==> |r.state.requested| > |s.requested|
    decreases |ps|
  {
    if ps == [] then AddResult(s, false)
    else
      var a := Ingest(s, ps[0], request);
      if a.raised then a else Add(a.state, ps[1..], request)
  }

  /** One iteration of the `for request_id in self._pending_request_ids`
      loop onward, from list position `i`. Python's list iterator walks by
      position, so after a removal the id that slides into the freed slot is
      passed over. A list id missing from the map raises KeyError. */
  function SweepFrom(s: EngineState, i: nat, check: string -> Option<string>): (r: SweepResult)
    ensures r.outcome != PollerStopped
    ensures |r.state.ready| >= |s.ready|
    ensures r.state.current == s.current && r.state.requested == s.requested && r.state.done == s.done
    ensures r.state.shutDown == s.shutDown && r.state.started == s.started && r.state.prefix == s.prefix
    decreases |s.pendingIds| - i
  {
    if i >= |s.pendingIds| then SweepResult(s, SweepFinished)
    else
      var id := s.pendingIds[i];
      if id !in s.pendingProducts then SweepResult(s, SweepCrashed)
      else
        var url := check(id);
        if Truthy(url) then
          SweepFrom(Promote(s, id, url.value), i + 1, check)
        else SweepFrom(s, i + 1, check)
  }

  /** The body of the `if download_url:` branch: set the URL, queue the
      product, and drop the id from the map and (first occurrence) the list. */
  function Promote(s: EngineState, id: string, url: string): (r: EngineState)
    requires id in s.pendingIds && id in s.pendingProducts
    ensures |r.ready| == |s.ready| + 1 && r.ready[..|s.ready|] == s.ready
    ensures r.ready[|s.ready|].supplierId == s.pendingProducts[id].supplierId
    ensures r.ready[|s.ready|].downloadUrl == Present(url)
    ensures r.pendingProducts == s.pendingProducts - {id}
    ensures |r.pendingIds| == |s.pendingIds| - 1
  {
    s.(ready := s.ready + [SetUrl(s.pendingProducts[id], url)],
       pendingProducts := s.pendingProducts - {id},
       pendingIds := RemoveFirst(s.pendingIds, id))
  }

  /** One round of the `_requests` loop: it stops once the flag is set,
      and sweeps the pending ids otherwise. */
  function Poll(s: EngineState, check: string -> Option<string>): (r: SweepResult)
    ensures r.outcome == PollerStopped <==> s.shutDown
    ensures s.shutDown ==> r.state == s
    ensures r.state.current == s.current
  {
    if s.shutDown then SweepResult(s, PollerStopped) else SweepFrom(s, 0, check)
  }

  /** `self._done_queue.put(...)` when a queue was given. */
  function Notify(done: Option<seq<Completion>>, c: Completion): (r: Option<seq<Completion>>)
    ensures r.Some? <==> done.Some?
    ensures r.Some? ==> |r.value| == |done.value| + 1
    ensures r.Some? ==> r.value[..|done.value|] == done.value && r.value[|done.value|..] == [c]
  {
    match done
    case None => None
    case Some(q) => Some(q + [c])
  }

  /** One round of the `_downloads` loop. `get()` blocks on an empty queue
      (so the `queue.Empty` handler is never reached); a download that raises
      leaves the loop before the counter is decremented. */
  function WorkerStep(s: EngineState, succeeds: bool): (r: WorkerResult)
    ensures r.outcome.WorkerStopped? <==> s.shutDown
    ensures r.outcome.WorkerBlocked? <==> !s.shutDown && s.ready == []
    ensures r.outcome.WorkerStopped? || r.outcome.WorkerBlocked? ==> r.state == s
    ensures r.state.pendingIds == s.pendingIds && r.state.pendingProducts == s.pendingProducts
    ensures r.state.started == s.started && r.state.shutDown == s.shutDown && r.state.prefix == s.prefix && r.state.requested == s.requested
    ensures r.state.current == s.current + (if r.outcome.DownloadRaised? then 1 else 0)
  {
    if s.shutDown then WorkerResult(s, WorkerStopped)
    else if s.ready == [] then WorkerResult(s, WorkerBlocked)
    else
      var p := s.ready[0];
      var name := TargetPath(s.prefix, p.supplierId);
      var busy := s.(ready := s.ready[1..], current := s.current + 1);
      if succeeds then
        WorkerResult(busy.(current := busy.current - 1, done := Notify(s.done, Completion(p, name))), Downloaded(name))
      else WorkerResult(busy, DownloadRaised(name))
  }

  // ---------------------------------------------------------------------
  // Lifecycle

  /** The constructor already started the engine, so an explicit `start`
      always raises and changes nothing. */
  lemma SecondStartRaises(prefix: string, done: Option<seq<Completion>>)
    ensures Constructed(prefix, done).started
    ensures Start(Constructed(prefix, done)).raised
    ensures Start(Constructed(prefix, done)).state == Constructed(prefix, done)
    ensures IsDone(Constructed(prefix, done)) && !Constructed(prefix, done).shutDown
  {
  }

  /** `is_done` looks at the list of pending ids, never at the map: whatever
      the map holds, the answer is the same. */
  lemma IsDoneIgnoresMap(s: EngineState, m: map<string, Product>)
    ensures IsDone(s.(pendingProducts := m)) == IsDone(s)
  {
  }

  // ---------------------------------------------------------------------
  // Ingest

  /** A single product: with the key it is queued and no request is made;
      without it, exactly one request is made and its id is recorded in the
      list and the map. */
  lemma AddOne(s: EngineState, p: Product, request: (nat, Product) -> RequestAnswer)
    ensures HasUrlKey(p) ==> Add(s, [p], request) == AddResult(s.(ready := s.ready + [p]), false)
    ensures !HasUrlKey(p) && request(|s.requested|, p).Issued? ==>
      var id := request(|s.requested|, p).id;
      Add(s, [p], request) == AddResult(s.(requested := s.requested + [p],
                                           pendingIds := s.pendingIds + [id],
                                           pendingProducts := s.pendingProducts[id := p]), false)
    ensures !HasUrlKey(p) && request(|s.requested|, p).Raised? ==>
      Add(s, [p], request) == AddResult(s.(requested := s.requested + [p]), true)
  {
  }

  /** `add` never touches the counter, the flags, the done queue or the
      prefix, and the requests it makes extend the call history by at most
      one call per product without the key. */
  lemma {:induction false} AddFrame(s: EngineState, ps: seq<Product>, request: (nat, Product) -> RequestAnswer)
    ensures var r := Add(s, ps, request).state;
      |s.requested| <= |r.requested| <= |s.requested| + |Unrouted(ps)| &&
      r.requested[..|s.requested|] == s.requested
    decreases |ps|
  {
    if ps != [] {
      var a := Ingest(s, ps[0], request);
      if !a.raised {
        AddFrame(a.state, ps[1..], request);
        var r := Add(s, ps, request).state;
        assert |a.state.requested| <= |s.requested| + 1;
        assert r.requested[..|s.requested|] == r.requested[..|a.state.requested|][..|s.requested|];
      }
    }
  }

  /** A batch that raises nothing queues exactly the products with the key,
      in order. */
  lemma {:induction false} AddQueuesRouted(s: EngineState, ps: seq<Product>, request: (nat, Product) -> RequestAnswer)
    ensures var a := Add(s, ps, request);
      !a.raised ==> a.state.ready == s.ready + Routed(ps)
    decreases |ps|
  {
    if ps == [] {
      assert Add(s, ps, request).state == s && Routed(ps) == [];
    } else {
      var a := Ingest(s, ps[0], request);
      AddCons(s, ps, request);
      RoutedCons(ps);
      if !a.raised {
        AddQueuesRouted(a.state, ps[1..], request);
        var r := Add(a.state, ps[1..], request);
        if !r.raised {
          if HasUrlKey(ps[0]) {
            calc {
              r.state.ready;
              (s.ready + [ps[0]]) + Routed(ps[1..]);
              s.ready + ([ps[0]] + Routed(ps[1..]));
            }
          } else {
            assert a.state.ready == s.ready;
          }
        }
      }
    }
  }

  /** A batch that raises nothing makes exactly one request per product
      without the key, in order, adding one pending id each. */
  lemma {:induction false} AddRequestsUnrouted(s: EngineState, ps: seq<Product>, request: (nat, Product) -> RequestAnswer)
    ensures var a := Add(s, ps, request);
      !a.raised ==>
        a.state.requested == s.requested + Unrouted(ps) &&
        |a.state.pendingIds| == |s.pendingIds| + |Unrouted(ps)|
    decreases |ps|
  {
    if ps == [] {
      assert Add(s, ps, request).state == s && Unrouted(ps) == [];
    } else {
      var a := Ingest(s, ps[0], request);
      AddCons(s, ps, request);
      RoutedCons(ps);
      if !a.raised {
        AddRequestsUnrouted(a.state, ps[1..], request);
        var r := Add(a.state, ps[1..], request);
        if !r.raised {
          if HasUrlKey(ps[0]) {
            assert a.state.requested == s.requested && a.state.pendingIds == s.pendingIds;
          } else {
            assert |a.state.pendingIds| == |s.pendingIds| + 1;
            calc {
              r.state.requested;
              (s.requested + [ps[0]]) + Unrouted(ps[1..]);
              s.requested + ([ps[0]] + Unrouted(ps[1..]));
            }
          }
        }
      }
    }
  }

  /** Every product of a batch is either queued or requested, and none is
      both: the two parts make up the batch. */
  lemma {:induction false} RoutingSplitsBatch(ps: seq<Product>)
    ensures multiset(Routed(ps)) + multiset(Unrouted(ps)) == multiset(ps)
    decreases |ps|
  {
    if ps != [] {
      RoutingSplitsBatch(ps[1..]);
      RoutedCons(ps);
      assert ps == [ps[0]] + ps[1..];
    }
  }

  /** `add` on a non-empty batch: the first product, then the rest unless
      its request raised. */
  lemma AddCons(s: EngineState, ps: seq<Product>, request: (nat, Product) -> RequestAnswer)
    requires ps != []
    ensures var a := Ingest(s, ps[0], request);
      Add(s, ps, request) == if a.raised then a else Add(a.state, ps[1..], request)
  {
  }

  lemma RoutedCons(ps: seq<Product>)
    requires ps != []
    ensures Routed(ps) == (if HasUrlKey(ps[0]) then [ps[0]] else []) + Routed(ps[1..])
    ensures Unrouted(ps) == (if HasUrlKey(ps[0]) then [] else [ps[0]]) + Unrouted(ps[1..])
  {
  }

  /** Adding the same product (without the key) twice makes two requests and
      leaves two pending entries: the duplicate guard never suppresses one. */
  lemma AddTwiceRequestsTwice(s: EngineState, p: Product, request: (nat, Product) -> RequestAnswer)
    requires !HasUrlKey(p)
    requires request(|s.requested|, p).Issued? && request(|s.requested| + 1, p).Issued?
    ensures var r := Add(s, [p, p], request);
      var id1, id2 := request(|s.requested|, p).id, request(|s.requested| + 1, p).id;
      !r.raised && r.state == s.(requested := s.requested + [p, p],
                                 pendingIds := s.pendingIds + [id1, id2],
                                 pendingProducts := s.pendingProducts[id1 := p][id2 := p])
  {
    var id1 := request(|s.requested|, p).id;
    var s1 := s.(requested := s.requested + [p], pendingIds := s.pendingIds + [id1],
                 pendingProducts := s.pendingProducts[id1 := p]);
    assert Ingest(s, p, request) == AddResult(s1, false);
    AddCons(s, [p, p], request);
    assert [p, p][0] == p && [p, p][1..] == [p];
    AddOne(s1, p, request);
  }

  /** The list of pending ids and the map agree: no id twice, the same ids. */
  ghost predicate Consistent(s: EngineState) {
    NoDup(s.pendingIds) && forall id :: id in s.pendingIds <==> id in s.pendingProducts
  }

  /** From call `from` on, every id the archive issues is new: it is not in
      `used` and differs from the id of every other call. */
  ghost predicate FreshIds(request: (nat, Product) -> RequestAnswer, from: nat, used: set<string>) {
    (forall k: nat, p: Product :: from <= k && request(k, p).Issued? ==> request(k, p).id !in used) &&
    (forall k1: nat, p1: Product, k2: nat, p2: Product ::
      from <= k1 < k2 && request(k1, p1).Issued? && request(k2, p2).Issued? ==>
        request(k1, p1).id != request(k2, p2).id)
  }

  /** When the archive issues fresh ids, `add` keeps the list and the map in
      agreement. */
  lemma {:induction false} AddKeepsConsistent(s: EngineState, ps: seq<Product>, request: (nat, Product) -> RequestAnswer)
    requires Consistent(s)
    requires FreshIds(request, |s.requested|, s.pendingProducts.Keys)
    ensures Consistent(Add(s, ps, request).state)
    decreases |ps|
  {
    if ps != [] {
      IngestKeepsConsistent(s, ps[0], request);
      var a := Ingest(s, ps[0], request);
      if !a.raised {
        AddKeepsConsistent(a.state, ps[1..], request);
      }
    }
  }

  lemma IngestKeepsConsistent(s: EngineState, p: Product, request: (nat, Product) -> RequestAnswer)
    requires Consistent(s)
    requires FreshIds(request, |s.requested|, s.pendingProducts.Keys)
    ensures var a := Ingest(s, p, request).state;
      Consistent(a) && FreshIds(request, |a.requested|, a.pendingProducts.Keys)
  {
    var a := Ingest(s, p, request).state;
    if !HasUrlKey(p) && request(|s.requested|, p).Issued? {
      var id := request(|s.requested|, p).id;
      assert id !in s.pendingIds;
      assert a.pendingIds == s.pendingIds + [id];
      forall i, j | 0 <= i < j < |a.pendingIds| ensures a.pendingIds[i] != a.pendingIds[j] {
        if j == |s.pendingIds| { assert a.pendingIds[i] in s.pendingIds; }
      }
      forall k: nat, q: Product | |a.requested| <= k && request(k, q).Issued?
        ensures request(k, q).id !in a.pendingProducts.Keys
      {
        assert request(|s.requested|, p).id != request(k, q).id;
      }
    }
  }

  // ---------------------------------------------------------------------
  // Request poller

  /** A sweep moves entries from the pending list to the ready queue one for
      one: the sum of the two lengths is unchanged, the old queue is a prefix
      of the new one, no id is added, every remaining entry keeps its product,
      and nothing outside the queue, the list and the map changes. */
  lemma SweepConserves(s: EngineState, i: nat, check: string -> Option<string>)
    ensures var r := SweepFrom(s, i, check);
      |r.state.ready| + |r.state.pendingIds| == |s.ready| + |s.pendingIds| &&
      |s.ready| <= |r.state.ready| && r.state.ready[..|s.ready|] == s.ready
    ensures var r := SweepFrom(s, i, check).state;
      r.pendingProducts.Keys <= s.pendingProducts.Keys &&
      (forall id :: id in r.pendingProducts ==> r.pendingProducts[id] == s.pendingProducts[id])
    ensures var r := SweepFrom(s, i, check);
      r.outcome != PollerStopped &&
      r.state == s.(ready := r.state.ready, pendingIds := r.state.pendingIds, pendingProducts := r.state.pendingProducts)
  {
    SweepKeepsQueue(s, i, check);
    SweepShrinksMap(s, i, check);
  }

  /** A sweep moves entries from the list to the end of the ready queue:
      the two lengths add up to the same total and the old queue is kept. */
  lemma {:induction false} SweepKeepsQueue(s: EngineState, i: nat, check: string -> Option<string>)
    ensures var r := SweepFrom(s, i, check).state;
      |r.ready| + |r.pendingIds| == |s.ready| + |s.pendingIds| && r.ready[..|s.ready|] == s.ready
    decreases |s.pendingIds| - i
  {
    if !(i < |s.pendingIds| && s.pendingIds[i] in s.pendingProducts) {
      SweepEnds(s, i, check);
    } else if !Truthy(check(s.pendingIds[i])) {
      SweepStep(s, i, check);
      SweepKeepsQueue(s, i + 1, check);
    } else {
      var id := s.pendingIds[i];
      var s' := Promote(s, id, check(id).value);
      var r := SweepFrom(s', i + 1, check).state;
      assert SweepFrom(s, i, check).state == r by {
        SweepStep(s, i, check);
      }
      SweepKeepsQueue(s', i + 1, check);
      assert r.ready[..|s.ready|] == r.ready[..|s'.ready|][..|s.ready|];
    }
  }

  /** A sweep only removes map entries; the entries it keeps are unchanged. */
  lemma {:induction false} SweepShrinksMap(s: EngineState, i: nat, check: string -> Option<string>)
    ensures var r := SweepFrom(s, i, check).state;
      r.pendingProducts.Keys <= s.pendingProducts.Keys &&
      (forall id :: id in r.pendingProducts ==> r.pendingProducts[id] == s.pendingProducts[id])
    decreases |s.pendingIds| - i
  {
    if !(i < |s.pendingIds| && s.pendingIds[i] in s.pendingProducts) {
      SweepEnds(s, i, check);
    } else if !Truthy(check(s.pendingIds[i])) {
      SweepStep(s, i, check);
      SweepShrinksMap(s, i + 1, check);
    } else {
      var id := s.pendingIds[i];
      var s' := Promote(s, id, check(id).value);
      assert SweepFrom(s, i, check).state == SweepFrom(s', i + 1, check).state by {
        SweepStep(s, i, check);
      }
      SweepShrinksMap(s', i + 1, check);
    }
  }

  /** `list.remove(id)` takes out the first occurrence of the id and keeps
      the rest of the list in order; promotion touches no other field. */
  lemma PromoteRemovesFirst(s: EngineState, id: string, url: string)
    requires id in s.pendingIds && id in s.pendingProducts
    ensures var j := FirstIndex(s.pendingIds, id);
      Promote(s, id, url).pendingIds == s.pendingIds[..j] + s.pendingIds[j + 1..]
    ensures var r := Promote(s, id, url);
      r == s.(ready := r.ready, pendingIds := r.pendingIds, pendingProducts := r.pendingProducts)
  {
    var j := FirstIndex(s.pendingIds, id);
    assert Promote(s, id, url).pendingIds == RemoveFirst(s.pendingIds, id);
    assert RemoveFirst(s.pendingIds, id) == s.pendingIds[..j] + s.pendingIds[j + 1..];
  }

  /** Promoting the entry at position `i` of a consistent state keeps it
      consistent and removes exactly that position from the list. */
  lemma PromoteKeepsConsistent(s: EngineState, i: nat, url: string)
    requires Consistent(s) && i < |s.pendingIds|
    ensures var id := s.pendingIds[i];
      var s' := Promote(s, id, url);
      Consistent(s') && s'.pendingIds == s.pendingIds[..i] + s.pendingIds[i + 1..]
  {
    RemoveFirstNoDup(s.pendingIds, i);
  }

  /** On a consistent state a sweep never raises KeyError and keeps the
      state consistent. */
  lemma {:induction false} SweepConsistent(s: EngineState, i: nat, check: string -> Option<string>)
    requires Consistent(s)
    ensures var r := SweepFrom(s, i, check);
      r.outcome == SweepFinished && Consistent(r.state)
    decreases |s.pendingIds| - i
  {
    if i < |s.pendingIds| {
      var id := s.pendingIds[i];
      var url := check(id);
      SweepStep(s, i, check);
      if Truthy(url) {
        PromoteKeepsConsistent(s, i, url.value);
        var s' := Promote(s, id, url.value);
        SweepConsistent(s', i + 1, check);
      } else {
        SweepConsistent(s, i + 1, check);
      }
    }
  }

  /** A sweep raises `KeyError` only when the list holds an id twice (so
      that promoting one copy leaves the other without a map entry) or some
      list id at position `i` or later has no map entry to begin with. */
  lemma {:induction false} SweepCrashNeedsMissingId(s: EngineState, i: nat, check: string -> Option<string>)
    ensures SweepFrom(s, i, check).outcome == SweepCrashed ==>
      !NoDup(s.pendingIds) || exists j :: i <= j < |s.pendingIds| && s.pendingIds[j] !in s.pendingProducts
    decreases |s.pendingIds| - i
  {
    if i >= |s.pendingIds| {
    } else if s.pendingIds[i] !in s.pendingProducts {
      assert s.pendingIds[i] !in s.pendingProducts;
    } else if !Truthy(check(s.pendingIds[i])) {
      SweepStep(s, i, check);
      SweepCrashNeedsMissingId(s, i + 1, check);
    } else {
      var id := s.pendingIds[i];
      var s' := Promote(s, id, check(id).value);
      assert SweepFrom(s, i, check) == SweepFrom(s', i + 1, check) by {
        SweepStep(s, i, check);
      }
      SweepCrashNeedsMissingId(s', i + 1, check);
      if SweepFrom(s', i + 1, check).outcome == SweepCrashed && NoDup(s.pendingIds) {
        PromoteKeepsNoDup(s, i, check(id).value);
        var j :| i + 1 <= j < |s'.pendingIds| && s'.pendingIds[j] !in s'.pendingProducts;
        PromoteShiftsMissing(s, i, check(id).value, j);
      }
    }
  }

  /** Without duplicates, promoting the id at position `i` leaves a list
      without duplicates. */
  lemma PromoteKeepsNoDup(s: EngineState, i: nat, url: string)
    requires NoDup(s.pendingIds) && i < |s.pendingIds| && s.pendingIds[i] in s.pendingProducts
    ensures NoDup(Promote(s, s.pendingIds[i], url).pendingIds)
  {
    RemoveFirstNoDup(s.pendingIds, i);
  }

  /** Without duplicates, promoting the id at position `i` leaves every
      earlier position as it was. */
  lemma PromoteKeepsEarlier(s: EngineState, i: nat, url: string, j: nat)
    requires NoDup(s.pendingIds) && j < i < |s.pendingIds| && s.pendingIds[i] in s.pendingProducts
    ensures var s' := Promote(s, s.pendingIds[i], url);
      j < |s'.pendingIds| && s'.pendingIds[j] == s.pendingIds[j]
  {
    RemoveFirstNoDup(s.pendingIds, i);
  }

  /** Without duplicates, an id past position `i` that lacks a map entry
      after promoting position `i` already lacked one one slot further on. */
  lemma PromoteShiftsMissing(s: EngineState, i: nat, url: string, j: nat)
    requires NoDup(s.pendingIds) && i < |s.pendingIds| && s.pendingIds[i] in s.pendingProducts
    requires var s' := Promote(s, s.pendingIds[i], url);
      i < j < |s'.pendingIds| && s'.pendingIds[j] !in s'.pendingProducts
    ensures j + 1 < |s.pendingIds| && s.pendingIds[j + 1] !in s.pendingProducts
  {
    RemoveFirstNoDup(s.pendingIds, i);
    assert s.pendingIds[j + 1] != s.pendingIds[i];
  }

  /** One position of a sweep whose id is in the map. */
  lemma SweepStep(s: EngineState, i: nat, check: string -> Option<string>)
    requires i < |s.pendingIds| && s.pendingIds[i] in s.pendingProducts
    ensures var id := s.pendingIds[i];
      SweepFrom(s, i, check) ==
        if Truthy(check(id)) then SweepFrom(Promote(s, id, check(id).value), i + 1, check)
        else SweepFrom(s, i + 1, check)
  {
  }

  /** A sweep past the end of the list, or at an id missing from the map,
      leaves the state as it is. */
  lemma SweepEnds(s: EngineState, i: nat, check: string -> Option<string>)
    requires !(i < |s.pendingIds| && s.pendingIds[i] in s.pendingProducts)
    ensures SweepFrom(s, i, check).state == s
  {
  }

  /** An entry whose check returns nothing stays pending with its product;
      so an entry leaves the map only when its check returned a URL. */
  lemma {:induction false} SweepKeepsUnready(s: EngineState, i: nat, check: string -> Option<string>, x: string)
    requires x in s.pendingProducts && !Truthy(check(x))
    ensures var r := SweepFrom(s, i, check).state;
      x in r.pendingProducts && r.pendingProducts[x] == s.pendingProducts[x]
    decreases |s.pendingIds| - i
  {
    if !(i < |s.pendingIds| && s.pendingIds[i] in s.pendingProducts) {
      SweepEnds(s, i, check);
    } else {
      var id := s.pendingIds[i];
      SweepStep(s, i, check);
      if Truthy(check(id)) {
        var s' := Promote(s, id, check(id).value);
        assert x != id;
        assert x in s'.pendingProducts && s'.pendingProducts[x] == s.pendingProducts[x];
        SweepKeepsUnready(s', i + 1, check, x);
      } else {
        SweepKeepsUnready(s, i + 1, check, x);
      }
    }
  }

  /** Every product a sweep appends to the ready queue is the product of an
      id whose check returned a URL, with `downloadUrl` set to that URL, and
      that id has left the map. */
  lemma {:induction false} SweepQueuesOnlyReady(s: EngineState, i: nat, check: string -> Option<string>, k: nat)
    requires |s.ready| <= k < |SweepFrom(s, i, check).state.ready|
    ensures var r := SweepFrom(s, i, check).state;
      exists id :: id in s.pendingProducts && id !in r.pendingProducts && Truthy(check(id)) &&
                   r.ready[k] == SetUrl(s.pendingProducts[id], check(id).value)
    decreases |s.pendingIds| - i
  {
    if !(i < |s.pendingIds| && s.pendingIds[i] in s.pendingProducts) {
      SweepEnds(s, i, check);
    } else {
      var id := s.pendingIds[i];
      SweepStep(s, i, check);
      if Truthy(check(id)) {
        var s' := Promote(s, id, check(id).value);
        var r := SweepFrom(s', i + 1, check).state;
        SweepConserves(s', i + 1, check);
        if k == |s.ready| {
          assert r.ready[k] == r.ready[..|s'.ready|][k] == s'.ready[k];
          assert id !in r.pendingProducts;
        } else {
          SweepQueuesOnlyReady(s', i + 1, check, k);
          var id' :| id' in s'.pendingProducts && id' !in r.pendingProducts && Truthy(check(id')) &&
                     r.ready[k] == SetUrl(s'.pendingProducts[id'], check(id').value);
          assert s'.pendingProducts[id'] == s.pendingProducts[id'];
        }
      } else {
        SweepQueuesOnlyReady(s, i + 1, check, k);
      }
    }
  }

  /** Every id that a sweep removes from the map had a check returning a URL,
      and its product, with `downloadUrl` set to that URL, is among the
      products the sweep appended to the ready queue. */
  lemma {:induction false} SweepQueuesEveryRemoved(s: EngineState, i: nat, check: string -> Option<string>, x: string)
    requires x in s.pendingProducts && x !in SweepFrom(s, i, check).state.pendingProducts
    ensures var r := SweepFrom(s, i, check).state;
      Truthy(check(x)) && SetUrl(s.pendingProducts[x], check(x).value) in r.ready[|s.ready|..]
    decreases |s.pendingIds| - i
  {
    if !(i < |s.pendingIds| && s.pendingIds[i] in s.pendingProducts) {
      SweepEnds(s, i, check);
    } else if !Truthy(check(s.pendingIds[i])) {
      SweepStep(s, i, check);
      SweepQueuesEveryRemoved(s, i + 1, check, x);
    } else {
      var id := s.pendingIds[i];
      var s' := Promote(s, id, check(id).value);
      var r := SweepFrom(s', i + 1, check).state;
      assert SweepFrom(s, i, check).state == r by {
        SweepStep(s, i, check);
      }
      if x == id {
        assert r.ready[|s.ready|] == s'.ready[|s.ready|] by {
          SweepConserves(s', i + 1, check);
          assert r.ready[|s.ready|] == r.ready[..|s'.ready|][|s.ready|];
        }
        assert r.ready[|s.ready|..][0] == r.ready[|s.ready|];
      } else {
        assert x in s'.pendingProducts && s'.pendingProducts[x] == s.pendingProducts[x];
        SweepQueuesEveryRemoved(s', i + 1, check, x);
        assert r.ready[|s.ready|..] == [r.ready[|s.ready|]] + r.ready[|s'.ready|..];
      }
    }
  }

  /** Ids at positions before `i` are never looked at again by the sweep, so
      they stay in the list. */
  lemma {:induction false} SweepKeepsPassed(s: EngineState, i: nat, check: string -> Option<string>, j: nat)
    requires NoDup(s.pendingIds) && j < i && j < |s.pendingIds|
    ensures s.pendingIds[j] in SweepFrom(s, i, check).state.pendingIds
    decreases |s.pendingIds| - i
  {
    if !(i < |s.pendingIds| && s.pendingIds[i] in s.pendingProducts) {
      SweepEnds(s, i, check);
    } else if !Truthy(check(s.pendingIds[i])) {
      SweepStep(s, i, check);
      SweepKeepsPassed(s, i + 1, check, j);
    } else {
      var id := s.pendingIds[i];
      var s' := Promote(s, id, check(id).value);
      assert SweepFrom(s, i, check).state == SweepFrom(s', i + 1, check).state by {
        SweepStep(s, i, check);
      }
      PromoteKeepsNoDup(s, i, check(id).value);
      PromoteKeepsEarlier(s, i, check(id).value, j);
      SweepKeepsPassed(s', i + 1, check, j);
    }
  }

  /** The list is modified while it is iterated: when the first pending id
      is promoted, the second slides into position 0 and is not checked in
      that sweep, even if its request is ready too. */
  lemma PollSkipsSlidingId(s: EngineState, check: string -> Option<string>)
    requires Consistent(s) && !s.shutDown
    requires |s.pendingIds| >= 2 && Truthy(check(s.pendingIds[0]))
    ensures var r := Poll(s, check).state;
      s.pendingIds[0] !in r.pendingIds && s.pendingIds[1] in r.pendingIds
  {
    var id := s.pendingIds[0];
    var url := check(id);
    assert id in s.pendingProducts;
    var s' := Promote(s, id, url.value);
    assert Consistent(s') && s'.pendingIds[0] == s.pendingIds[1] by {
      PromoteKeepsConsistent(s, 0, url.value);
    }
    assert Poll(s, check).state == SweepFrom(s', 1, check).state by {
      SweepStep(s, 0, check);
    }
    var r := SweepFrom(s', 1, check).state;
    assert s.pendingIds[1] in r.pendingIds by {
      SweepKeepsPassed(s', 1, check, 0);
    }
    assert id !in r.pendingIds by {
      SweepShrinksMap(s', 1, check);
      SweepConsistent(s', 1, check);
      assert id !in r.pendingProducts;
    }
  }

  // ---------------------------------------------------------------------
  // Download worker

  /** A worker round on a non-empty queue takes the oldest product and writes
      it to `prefix/supplierId.zip`. On success the counter is back to its old
      value and a completion record is put on the done queue, if one was
      given; on failure the counter stays one higher and nothing is reported. */
  lemma WorkerStepEffects(s: EngineState, succeeds: bool)
    requires !s.shutDown && s.ready != []
    ensures var r := WorkerStep(s, succeeds);
      var name := TargetPath(s.prefix, s.ready[0].supplierId);
      r.state.ready == s.ready[1..] && r.state.pendingIds == s.pendingIds &&
      r.state.pendingProducts == s.pendingProducts &&
      (succeeds ==> r.outcome == Downloaded(name) && r.state.current == s.current &&
                    r.state.done == Notify(s.done, Completion(s.ready[0], name))) &&
      (!succeeds ==> r.outcome == DownloadRaised(name) && r.state.current == s.current + 1 &&
                     r.state.done == s.done)
  {
  }

  // ---------------------------------------------------------------------
  // Whole runs

  /** Any step a caller or a thread can take. */
  datatype Step =
    | AddBatch(products: seq<Product>, request: (nat, Product) -> RequestAnswer)
    | PollOnce(check: string -> Option<string>)
    | WorkOnce(succeeds: bool)
    | StartAgain
    | StopAll

  function Apply(s: EngineState, step: Step): EngineState {
    match step
    case AddBatch(ps, request) => Add(s, ps, request).state
    case PollOnce(check) => Poll(s, check).state
    case WorkOnce(succeeds) => WorkerStep(s, succeeds).state
    case StartAgain => Start(s).state
    case StopAll => Shutdown(s)
  }

  function Run(s: EngineState, steps: seq<Step>): EngineState
    decreases |steps|
  {
    if steps == [] then s else Run(Apply(s, steps[0]), steps[1..])
  }

  /** No step ever lowers the in-flight counter below its value before the step. */
  lemma ApplyKeepsCounter(s: EngineState, step: Step)
    ensures Apply(s, step).current >= s.current
  {
    match step
    case AddBatch(ps, request) => AddFrame(s, ps, request);
    case PollOnce(check) => if !s.shutDown { SweepConserves(s, 0, check); }
    case WorkOnce(succeeds) =>
    case StartAgain =>
    case StopAll =>
  }

  lemma {:induction false} RunKeepsCounter(s: EngineState, steps: seq<Step>)
    ensures Run(s, steps).current >= s.current
    decreases |steps|
  {
    if steps != [] {
      ApplyKeepsCounter(s, steps[0]);
      RunKeepsCounter(Apply(s, steps[0]), steps[1..]);
    }
  }

  /** Once a download has raised, the leaked count keeps `is_done` false
      whatever happens afterwards. */
  lemma LeakIsPermanent(s: EngineState, steps: seq<Step>)
    requires s.current >= 1
    ensures !IsDone(Run(s, steps))
  {
    RunKeepsCounter(s, steps);
  }

  // ---------------------------------------------------------------------
  // Scenarios with the mock client of tests/test_bulk_download.py

  /** The mock's `request` returns the supplier id. */
  function MockRequest(k: nat, p: Product): (r: RequestAnswer)
    ensures r.Issued? && r.id == p.supplierId
  {
    Issued(p.supplierId)
  }

  /** The mock's `is_request_ready` always returns the same URL. */
  function MockReady(id: string): (r: Option<string>)
    ensures Truthy(r) && r.value == "a-mock-download-url.html"
  {
    Some("a-mock-download-url.html")
  }

  /** A sweep over a single pending id whose request is ready empties the
      list and the map and queues the product with its URL. */
  lemma PollSingleReady(s: EngineState, id: string, q: Product, check: string -> Option<string>)
    requires !s.shutDown && s.pendingIds == [id] && s.pendingProducts == map[id := q]
    requires Truthy(check(id))
    ensures Poll(s, check) == SweepResult(s.(ready := s.ready + [SetUrl(q, check(id).value)],
                                             pendingProducts := map[], pendingIds := []), SweepFinished)
  {
    assert FirstIndex([id], id) == 0;
    assert RemoveFirst([id], id) == [];
    assert s.pendingProducts - {id} == map[];
    assert Poll(s, check) == SweepFrom(Promote(s, id, check(id).value), 1, check);
  }

  /** The file name the mock scenario's worker uses. */
  lemma TmpTestPath()
    ensures TargetPath("/tmp/", "test") == "/tmp/test.zip"
  {
    assert "/tmp/"[|"/tmp/"| - 1] == '/';
  }

  /** test_erroredRequest: one product "test" is requested, promoted by one
      sweep and taken by a worker whose download raises; the counter stays
      at 1, so `is_done` never becomes true again. */
  lemma ErroredRequestScenario(steps: seq<Step>)
    ensures var s0 := Constructed("/tmp/", None);
      var p := Product("test", Absent);
      var a := Add(s0, [p], MockRequest);
      var sw := Poll(a.state, MockReady);
      var w := WorkerStep(sw.state, false);
      !a.raised && a.state.pendingIds == ["test"] && a.state.requested == [p] &&
      sw.outcome == SweepFinished && sw.state.pendingIds == [] &&
      sw.state.ready == [Product("test", Present("a-mock-download-url.html"))] &&
      w.outcome == DownloadRaised("/tmp/test.zip") && w.state.current == 1 &&
      !IsDone(Run(w.state, steps))
  {
    var s0 := Constructed("/tmp/", None);
    var p := Product("test", Absent);
    AddOne(s0, p, MockRequest);
    var s1 := s0.(requested := [p], pendingIds := ["test"], pendingProducts := map["test" := p]);
    assert Add(s0, [p], MockRequest) == AddResult(s1, false);
    PollSingleReady(s1, "test", p, MockReady);
    var s2 := s1.(ready := [Product("test", Present("a-mock-download-url.html"))], pendingProducts := map[], pendingIds := []);
    assert Poll(s1, MockReady) == SweepResult(s2, SweepFinished);
    WorkerStepEffects(s2, false);
    TmpTestPath();
    LeakIsPermanent(WorkerStep(s2, false).state, steps);
  }

  /** With the mock's request ids, adding a product twice puts its id in the
      list twice but in the map once; the first sweep promotes it and leaves
      the second copy in the list, and the next sweep raises KeyError. */
  lemma DuplicateAddCrashesPoller(sid: string)
    ensures var s0 := Constructed("/tmp/", None);
      var p := Product(sid, Absent);
      var s1 := Add(s0, [p, p], MockRequest).state;
      var sw := Poll(s1, MockReady);
      s1.pendingIds == [sid, sid] && s1.requested == [p, p] && !Consistent(s1) &&
      sw.outcome == SweepFinished && sw.state.pendingIds == [sid] &&
      sid !in sw.state.pendingProducts && |sw.state.ready| == 1 &&
      Poll(sw.state, MockReady).outcome == SweepCrashed
  {
    var s0 := Constructed("/tmp/", None);
    var p := Product(sid, Absent);
    AddTwiceRequestsTwice(s0, p, MockRequest);
    var s1 := Add(s0, [p, p], MockRequest).state;
    assert s1 == s0.(requested := [p, p], pendingIds := [sid, sid], pendingProducts := map[sid := p]);
    assert FirstIndex([sid, sid], sid) == 0;
    assert RemoveFirst([sid, sid], sid) == [sid];
    assert s1.pendingProducts - {sid} == map[];
    var s2 := Promote(s1, sid, "a-mock-download-url.html");
    assert s2.pendingIds == [sid] && s2.pendingProducts == map[];
    assert Poll(s1, MockReady) == SweepFrom(s2, 1, MockReady);
    assert Poll(s2, MockReady).outcome == SweepCrashed;
  }
}

=== FILE: getthestuff_bulk_download.dfy ===
/**
  SeDASBulkDownload as it stands in the getthestuff package: the same engine
  without a completion queue, so a finished download is reported nowhere.
 */
module GetthestuffBulkDownload {
  import opened Products
  import opened Engine

  class BulkDownload {
    var readyQueue: seq<Product>                // _pending_download
    var pendingRequestIds: seq<string>          // _pending_request_ids
    var pendingProducts: map<string, Product>   // _pending_products
    var currentDownloads: int                   // _current_downloads
    var shutDown: bool                          // _shut_down
    var started: bool                           // _requested_thread is set
    var requested: seq<Product>                 // calls made to client.request
    const prefix: string                        // _prefix
    const parallel: nat                         // number of download threads

    function State(): EngineState
      reads this
    {
      EngineState(readyQueue, pendingRequestIds, pendingProducts, currentDownloads,
                  shutDown, started, None, prefix, requested)
    }

    /** `__init__` sets up empty bookkeeping and calls `start`. */
    constructor (downloadPrefix: string, parallel: nat)
      ensures State() == Constructed(downloadPrefix, None)
      ensures this.parallel == parallel
    {
      readyQueue, pendingRequestIds, pendingProducts := [], [], map[];
      currentDownloads, shutDown, started := 0, false, false;
      requested := [];
      prefix, this.parallel := downloadPrefix, parallel;
      new;
      var _ := Start();
    }

    /** `start`: raises ChildProcessError once the threads exist. */
    method Start() returns (raised: bool)
      modifies this
      ensures StartResult(State(), raised) == Engine.Start(old(State()))
    {
      if started {
        return true;
      }
      started := true;
      raised := false;
    }

    /** `shutdown`: sets the flag and nothing else. */
    method Shutdown()
      modifies this`shutDown
      ensures State() == Engine.Shutdown(old(State()))
    {
      shutDown := true;
    }

    /** `is_done` */
    method IsDone() returns (r: bool)
      ensures r <==> readyQueue == [] && pendingRequestIds == [] && currentDownloads == 0
      ensures r == Engine.IsDone(State())
    {
      r := readyQueue == [] && |pendingRequestIds| == 0 && currentDownloads == 0;
    }

    /** `add(search_results)`, with `request` answering the k-th call to
        `client.request`. Returns true when a request raised. */
    method Add(searchResults: seq<Product>, request: (nat, Product) -> RequestAnswer) returns (raised: bool)
      modifies this
      ensures AddResult(State(), raised) == Engine.Add(old(State()), searchResults, request)
    {
      var k := 0;
      while k < |searchResults|
        invariant 0 <= k <= |searchResults|
        invariant Engine.Add(State(), searchResults[k..], request) == Engine.Add(old(State()), searchResults, request)
      {
        var product := searchResults[k];
        assert searchResults[k..][0] == product && searchResults[k..][1..] == searchResults[k + 1..];
        if HasUrlKey(product) {
          readyQueue := readyQueue + [product];
        } else if !AlreadyRequested(product, pendingProducts) {
          var answer := request(|requested|, product);
          requested := requested + [product];
          match answer
          case Raised =>
            return true;
          case Issued(requestId) =>
            pendingRequestIds := pendingRequestIds + [requestId];
            pendingProducts := pendingProducts[requestId := product];
        }
        k := k + 1;
      }
      raised := false;
    }

    /** One round of the `_requests` thread: unless the flag is set, check
        every pending id by list position and promote the ready ones. */
    method Requests(check: string -> Option<string>) returns (outcome: PollOutcome)
      modifies this
      ensures SweepResult(State(), outcome) == Engine.Poll(old(State()), check)
    {
      if shutDown {
        return PollerStopped;
      }
      var i: nat := 0;
      while i < |pendingRequestIds|
        invariant Engine.SweepFrom(State(), i, check) == Engine.Poll(old(State()), check)
        decreases |pendingRequestIds| - i
      {
        var requestId := pendingRequestIds[i];
        if requestId !in pendingProducts {
          return SweepCrashed;
        }
        var product := pendingProducts[requestId];
        var downloadUrl := check(requestId);
        if Truthy(downloadUrl) {
          product := SetUrl(product, downloadUrl.value);
          readyQueue := readyQueue + [product];
          pendingProducts := pendingProducts - {requestId};
          pendingRequestIds := RemoveFirst(pendingRequestIds, requestId);
        }
        i := i + 1;
      }
      outcome := SweepFinished;
    }

    /** One round of a `_downloads` thread, with `succeeds` saying whether
        `client.download` returned. */
    method Downloads(succeeds: bool) returns (outcome: WorkerOutcome)
      modifies this
      ensures WorkerResult(State(), outcome) == Engine.WorkerStep(old(State()), succeeds)
    {
      if shutDown {
        return WorkerStopped;
      }
      if readyQueue == [] {
        return WorkerBlocked;
      }
      ghost var before := State();
      WorkerStepEffects(before, succeeds);
      var pending := readyQueue[0];
      readyQueue := readyQueue[1..];
      currentDownloads := currentDownloads + 1;
      var name := TargetPath(prefix, pending.supplierId);
      ghost var busy := before.(ready := before.ready[1..], current := before.current + 1);
      assert State() == busy;
      if !succeeds {
        return DownloadRaised(name);
      }
      currentDownloads := currentDownloads - 1;
      outcome := Downloaded(name);
    }
  }
}

=== FILE: legacy_bulk_download.dfy ===
/**
  SeDASBulkDownload in its earliest form, at the top of the repository: public
  `requests` and `downloads` loops, no completion queue, and a `verbose` flag
  that only switches printing on.
 */
module LegacyBulkDownload {
  import opened Products
  import opened Engine

  class BulkDownload {
    var readyQueue: seq<Product>                // _pending_download
    var pendingRequestIds: seq<string>          // _pending_request_ids
    var pendingProducts: map<string, Product>   // _pending_products
    var currentDownloads: int                   // _current_downloads
    var shutDown: bool                          // _shut_down
    var started: bool                           // _requested_thread is set
    var requested: seq<Product>                 // calls made to client.request
    const prefix: string                        // _prefix
    const parallel: nat                         // number of download threads
    const verbose: bool                         // _verbose: printing only

    function State(): EngineState
      reads this
    {
      EngineState(readyQueue, pendingRequestIds, pendingProducts, currentDownloads,
                  shutDown, started, None, prefix, requested)
    }

    /** `__init__` sets up empty bookkeeping and calls `start`. */
    constructor (downloadPrefix: string, parallel: nat, verbose: bool)
      ensures State() == Constructed(downloadPrefix, None)
      ensures this.parallel == parallel && this.verbose == verbose
    {
      readyQueue, pendingRequestIds, pendingProducts := [], [], map[];
      currentDownloads, shutDown, started := 0, false, false;
      requested := [];
      this.verbose := verbose;
      prefix, this.parallel := downloadPrefix, parallel;
      new;
      var _ := Start();
    }

    /** `start`: raises ChildProcessError once the threads exist. */
    method Start() returns (raised: bool)
      modifies this
      ensures StartResult(State(), raised) == Engine.Start(old(State()))
    {
      if started {
        return true;
      }
      started := true;
      raised := false;
    }

    /** `shutdown`: sets the flag and nothing else. */
    method Shutdown()
      modifies this`shutDown
      ensures State() == Engine.Shutdown(old(State()))
    {
      shutDown := true;
    }

    /** `is_done` */
    method IsDone() returns (r: bool)
      ensures r <==> readyQueue == [] && pendingRequestIds == [] && currentDownloads == 0
      ensures r == Engine.IsDone(State())
    {
      r := readyQueue == [] && |pendingRequestIds| == 0 && currentDownloads == 0;
    }

    /** `add(search_results)`, with `request` answering the k-th call to
        `client.request`. Returns true when a request raised. */
    method Add(searchResults: seq<Product>, request: (nat, Product) -> RequestAnswer) returns (raised: bool)
      modifies this
      ensures AddResult(State(), raised) == Engine.Add(old(State()), searchResults, request)
    {
      var k := 0;
      while k < |searchResults|
        invariant 0 <= k <= |searchResults|
        invariant Engine.Add(State(), searchResults[k..], request) == Engine.Add(old(State()), searchResults, request)
      {
        var product := searchResults[k];
        assert searchResults[k..][0] == product && searchResults[k..][1..] == searchResults[k + 1..];
        if HasUrlKey(product) {
          readyQueue := readyQueue + [product];
        } else if !AlreadyRequested(product, pendingProducts) {
          var answer := request(|requested|, product);
          requested := requested + [product];
          match answer
          case Raised =>
            return true;
          case Issued(requestId) =>
            pendingRequestIds := pendingRequestIds + [requestId];
            pendingProducts := pendingProducts[requestId := product];
        }
        k := k + 1;
      }
      raised := false;
    }

    /** One round of the `requests` thread: unless the flag is set, check
        every pending id by list position and promote the ready ones. */
    method Requests(check: string -> Option<string>) returns (outcome: PollOutcome)
      modifies this
      ensures SweepResult(State(), outcome) == Engine.Poll(old(State()), check)
    {
      if shutDown {
        return PollerStopped;
      }
      var i: nat := 0;
      while i < |pendingRequestIds|
        invariant Engine.SweepFrom(State(), i, check) == Engine.Poll(old(State()), check)
        decreases |pendingRequestIds| - i
      {
        var requestId := pendingRequestIds[i];
        if requestId !in pendingProducts {
          return SweepCrashed;
        }
        var product := pendingProducts[requestId];
        var downloadUrl := check(requestId);
        if Truthy(downloadUrl) {
          product := SetUrl(product, downloadUrl.value);
          readyQueue := readyQueue + [product];
          pendingProducts := pendingProducts - {requestId};
          pendingRequestIds := RemoveFirst(pendingRequestIds, requestId);
        }
        i := i + 1;
      }
      outcome := SweepFinished;
    }

    /** One round of a `downloads` thread, with `succeeds` saying whether
        `client.download` returned. */
    method Downloads(succeeds: bool) returns (outcome: WorkerOutcome)
      modifies this
      ensures WorkerResult(State(), outcome) == Engine.WorkerStep(old(State()), succeeds)
    {
      if shutDown {
        return WorkerStopped;
      }
      if readyQueue == [] {
        return WorkerBlocked;
      }
      ghost var before := State();
      WorkerStepEffects(before, succeeds);
      var pending := readyQueue[0];
      readyQueue := readyQueue[1..];
      currentDownloads := currentDownloads + 1;
      var name := TargetPath(prefix, pending.supplierId);
      ghost var busy := before.(ready := before.ready[1..], current := before.current + 1);
      assert State() == busy;
      if !succeeds {
        return DownloadRaised(name);
      }
      currentDownloads := currentDownloads - 1;
      outcome := Downloaded(name);
    }
  }
}

=== FILE: products.dfy ===
/**
  Values shared by the bulk-download engine and the API client: search-result
  products, the optional `downloadUrl` entry of a product dictionary, the
  Python truthiness tests the code relies on, the download file name and the
  `list.remove` primitive the request poller uses.
 */
module Products {

  datatype Option<T> = None | Some(value: T)

  /** The `downloadUrl` entry of a product dictionary: the key may be absent,
      or present with some value. `Present("")` stands for every falsy value
      (an empty string or `None`). */
  datatype UrlField = Absent | Present(url: string)

  /** A search result as the engine sees it: its supplier identifier and its
      `downloadUrl` entry. */
  datatype Product = Product(supplierId: string, downloadUrl: UrlField)

  /** What a worker reports on the completion queue: `{'search': p, 'path': name}`. */
  datatype Completion = Completion(search: Product, path: string)

  /** `'downloadUrl' in product`: presence of the key, whatever its value.
      Only a missing key is absent; a falsy value still counts as present. */
  predicate HasUrlKey(p: Product)
    ensures HasUrlKey(p) <==> p.downloadUrl != Absent
  {
    p.downloadUrl.Present?
  }

  /** `product['downloadUrl'] = url` */
  function SetUrl(p: Product, url: string): (r: Product)
    ensures HasUrlKey(r) && r.downloadUrl.url == url
    ensures r.supplierId == p.supplierId
  {
    p.(downloadUrl := Present(url))
  }

  /** Python truthiness of an optional string: neither `None` nor empty. */
  predicate Truthy(a: Option<string>)
    ensures Truthy(a) <==> a != None && a != Some("")
  {
    a.Some? && a.value != ""
  }

  /** The Python values that `product in d.items()` compares: a product is a
      dictionary, while `items()` yields (key, value) tuples. */
  datatype PyValue = DictValue(product: Product) | PairValue(key: string, value: Product)

  /** `d.items()` of the request-id to product dictionary. */
  function Items(m: map<string, Product>): (r: set<PyValue>)
    ensures forall v :: v in r ==> v.PairValue? && v.key in m && m[v.key] == v.value
    ensures forall k :: k in m ==> PairValue(k, m[k]) in r
  {
    set k | k in m :: PairValue(k, m[k])
  }

  /** The de-duplication guard `product in self._pending_products.items()`:
      a dictionary never equals a tuple, so it never holds. */
  function AlreadyRequested(p: Product, m: map<string, Product>): (r: bool)
    ensures !r
  {
    DictValue(p) in Items(m)
  }

  /** `os.path.join(prefix, name)` for a relative `name`: a separator is added
      unless the prefix is empty or already ends with one. */
  function JoinPath(prefix: string, name: string): (r: string)
    ensures |prefix| + |name| <= |r| <= |prefix| + |name| + 1
    ensures prefix == "" ==> r == name
    ensures r[..|prefix|] == prefix && r[|r| - |name|..] == name
    ensures prefix != "" ==> r[|r| - |name| - 1] == '/'
    ensures |r| == |prefix| + |name| <==> prefix == "" || prefix[|prefix| - 1] == '/'
  {
    if prefix == "" || prefix[|prefix| - 1] == '/' then prefix + name
    else prefix + "/" + name
  }

  /** The file a worker writes: `os.path.join(prefix, supplierId + '.zip')`. */
  function TargetPath(prefix: string, supplierId: string): (r: string)
    ensures |r| >= |supplierId| + 4 && r[|r| - 4..] == ".zip"
    ensures r[|r| - |supplierId| - 4..|r| - 4] == supplierId
    ensures |r| >= |prefix| && r[..|prefix|] == prefix
    ensures prefix != "" ==> |r| >= |supplierId| + 5 && r[|r| - |supplierId| - 5] == '/'
    ensures |prefix| + |supplierId| + 4 <= |r| <= |prefix| + |supplierId| + 5
    ensures prefix == "" || prefix[|prefix| - 1] == '/' <==> |r| == |prefix| + |supplierId| + 4
  {
    var name := supplierId + ".zip";
    var r := JoinPath(prefix, name);
    assert r[|r| - |name|..] == name;
    assert name[..|supplierId|] == supplierId && name[|supplierId|..] == ".zip";
    r
  }

  predicate NoDup(s: seq<string>) {
    forall i, j :: 0 <= i < j < |s| ==> s[i] != s[j]
  }

  /** Index of the first occurrence of `x` in `s`. */
  function FirstIndex(s: seq<string>, x: string): (j: nat)
    requires x in s
    ensures j < |s| && s[j] == x
    ensures forall k :: 0 <= k < j ==> s[k] != x
  {
    if s[0] == x then 0 else 1 + FirstIndex(s[1..], x)
  }

  /** `list.remove(x)`: deletes the first occurrence of `x`. */
  function RemoveFirst(s: seq<string>, x: string): (r: seq<string>)
    requires x in s
    ensures |r| == |s| - 1
    ensures multiset(r) == multiset(s) - multiset{x}
    ensures r[..FirstIndex(s, x)] == s[..FirstIndex(s, x)]
  {
    var j := FirstIndex(s, x);
    assert s == s[..j] + [x] + s[j + 1..];
    s[..j] + s[j + 1..]
  }

  /** `RemoveFirst` is `list.remove`: putting `x` back at its first position
      gives the list again, and no earlier element is `x`. */
  lemma RemoveFirstSplits(s: seq<string>, x: string)
    requires x in s
    ensures var j := FirstIndex(s, x); var r := RemoveFirst(s, x);
      j <= |r| && s == r[..j] + [x] + r[j..] && x !in r[..j]
  {
    var j := FirstIndex(s, x);
    var r := RemoveFirst(s, x);
    assert r[..j] == s[..j] && r[j..] == s[j + 1..];
    assert s == s[..j] + [x] + s[j + 1..];
  }

  /** Without duplicates, removing `s[i]` deletes exactly position `i`, keeps
      every other element and keeps the list free of duplicates. */
  lemma RemoveFirstNoDup(s: seq<string>, i: nat)
    requires NoDup(s) && i < |s|
    ensures RemoveFirst(s, s[i]) == s[..i] + s[i + 1..]
    ensures NoDup(RemoveFirst(s, s[i]))
    ensures forall x :: x in RemoveFirst(s, s[i]) <==> x in s && x != s[i]
  {
    var j := FirstIndex(s, s[i]);
    assert j == i;
    var r := s[..i] + s[i + 1..];
    forall x | x in s && x != s[i] ensures x in r {
      var k :| 0 <= k < |s| && s[k] == x;
      if k < i { assert r[k] == x; } else { assert r[k - 1] == x; }
    }
  }
}

=== FILE: sedas_api.dfy ===
/**
  The parts of the SeDAS API client that decide something: the token-error
  classifier, the decoding of a request-status response, the search query,
  the URL strings, the login guards and token expiry, the error handler that
  logs in again, and the retry-at-most-once policy. HTTP and JSON are left
  out: responses arrive as already-decoded values or as oracle answers, and
  times are whole minutes.
 */
module SedasApi {
  import opened Products
  import Engine

  const BaseUrl: string := "https://geobrowser.satapps.org/api/"
  const AuthenticationUrl: string := BaseUrl + "authentication"
  const SearchUrl: string := BaseUrl + "search"
  const TokenErrorMessage: string := "User token does not exist"

  /** An HTTPError: its status code and, when the object has one, its
      `message` attribute. */
  datatype HttpError = HttpError(code: int, message: Option<string>)

  // ---------------------------------------------------------------------
  // Token errors

  /** `_is_token_error`: 401 and 403 always; 400 only with the message
      "User token does not exist". */
  function IsTokenError(e: HttpError): (r: bool)
    ensures r <==> e.code == 401 || e.code == 403 || (e.code == 400 && e.message == Some(TokenErrorMessage))
    ensures r ==> 400 <= e.code <= 403 && e.code != 402
    ensures e.code == 400 && e.message.None? ==> !r
  {
    if e.code == 403 || e.code == 401 then true
    else if e.code == 400 && e.message.Some? && e.message.value == TokenErrorMessage then true
    else false
  }

  // ---------------------------------------------------------------------
  // URLs

  /** The prefix of every archive-request URL: the base URL already ends in
      a slash, so the f-string yields "api//request/". */
  const RequestPrefix: string := BaseUrl + "/request/"

  /** `f"{base_url}/request/{supplierId}"` (POST) */
  function RequestUrl(supplierId: string): (r: string)
    ensures r == "https://geobrowser.satapps.org/api//request/" + supplierId
  {
    BaseUrl + "/request/" + supplierId
  }

  /** `f"{base_url}/request?ids={request_id}"` */
  function StatusUrl(requestId: string): (r: string)
    ensures r == "https://geobrowser.satapps.org/api//request?ids=" + requestId
  {
    BaseUrl + "/request?ids=" + requestId
  }

  /** `f"{search_url}/products?ids={product_id}"` */
  function ProductUrl(productId: string): (r: string)
    ensures r == "https://geobrowser.satapps.org/api/search/products?ids=" + productId
  {
    SearchUrl + "/products?ids=" + productId
  }

  /** The supplier id an archive-request URL names, if it is one. */
  function RequestedSupplier(url: string): (r: Option<string>)
    ensures r.Some? ==> RequestUrl(r.value) == url
  {
    if |url| >= |RequestPrefix| && url[..|RequestPrefix|] == RequestPrefix
    then Some(url[|RequestPrefix|..]) else None
  }

  /** The supplier id can be read back from its request URL, so two
      products get the same URL only when their ids are equal; and a
      request URL is never a status URL. */
  lemma RequestUrlRoundTrip(supplierId: string, requestId: string)
    ensures RequestedSupplier(RequestUrl(supplierId)) == Some(supplierId)
    ensures RequestUrl(supplierId) != StatusUrl(requestId)
  {
    var u := RequestUrl(supplierId);
    assert u[..|RequestPrefix|] == RequestPrefix;
    assert u[|RequestPrefix|..] == supplierId;
    assert u[|BaseUrl| + 8] == '/';
    assert StatusUrl(requestId)[|BaseUrl| + 8] == '?';
  }

  lemma RequestUrlInjective(a: string, b: string)
    requires RequestUrl(a) == RequestUrl(b)
    ensures a == b
  {
    RequestUrlRoundTrip(a, "");
    RequestUrlRoundTrip(b, "");
  }

  // ---------------------------------------------------------------------
  // Request status

  /** The decoding in `is_request_ready`: the first entry's `downloadUrl`,
      when the list is non-empty and that entry has the key. */
  function DecodeStatus(decoded: seq<map<string, string>>): (r: Option<string>)
    ensures r.Some? <==> |decoded| >= 1 && "downloadUrl" in decoded[0]
    ensures r.Some? ==> r.value == decoded[0]["downloadUrl"]
  {
    if |decoded| >= 1 && "downloadUrl" in decoded[0] then Some(decoded[0]["downloadUrl"]) else None
  }

  /** Only the first entry counts, and an empty URL in it is returned as is,
      which the request poller then treats as "not ready". */
  lemma DecodeStatusFirstEntryOnly(first: map<string, string>, rest: seq<map<string, string>>)
    ensures DecodeStatus([first] + rest) == DecodeStatus([first])
    ensures first == map["downloadUrl" := ""] ==> !Truthy(DecodeStatus([first] + rest))
    ensures DecodeStatus([]) == None
  {
    assert ([first] + rest)[0] == first;
  }

  // ---------------------------------------------------------------------
  // Search query

  datatype QueryValue = Text(text: string) | Fields(fields: map<string, string>)

  /** The arguments of `search`, keyword filters included. */
  datatype SearchArgs = SearchArgs(
    wkt: string, startDate: string, endDate: string, sensor: string,
    satelliteName: string, sourceGroup: string, filters: map<string, string>)

  /** The query dictionary `search` posts. */
  function SearchQuery(a: SearchArgs): (q: map<string, QueryValue>)
    ensures q.Keys <= {"sensorFilters", "filters", "aoiWKT", "start", "stop", "satelliteName", "sourceGroup"}
    ensures "sensorFilters" in q && q["sensorFilters"] == Fields(map["type" := a.sensor])
    ensures "filters" in q && q["filters"] == Fields(a.filters)
    ensures "aoiWKT" in q && q["aoiWKT"] == Text(a.wkt)
    ensures "start" in q && q["start"] == Text(a.startDate)
    ensures "stop" in q && q["stop"] == Text(a.endDate)
    ensures "satelliteName" in q <==> a.satelliteName != ""
    ensures "satelliteName" in q ==> q["satelliteName"] == Text(a.satelliteName)
    ensures "sourceGroup" in q <==> a.sourceGroup != ""
    ensures "sourceGroup" in q ==> q["sourceGroup"] == Text(a.sourceGroup)
  {
    var base := map[
      "sensorFilters" := Fields(map["type" := a.sensor]),
      "filters" := Fields(a.filters),
      "aoiWKT" := Text(a.wkt),
      "start" := Text(a.startDate),
      "stop" := Text(a.endDate)];
    var withSatellite := if a.satelliteName != "" then base["satelliteName" := Text(a.satelliteName)] else base;
    if a.sourceGroup != "" then withSatellite["sourceGroup" := Text(a.sourceGroup)] else withSatellite
  }

  /** The arguments of the recursive retry in `search`: the source group is
      not passed on, so it falls back to its empty default. */
  function RetryArgs(a: SearchArgs): (r: SearchArgs)
    ensures r.sourceGroup == ""
    ensures r.wkt == a.wkt && r.startDate == a.startDate && r.endDate == a.endDate
    ensures r.sensor == a.sensor && r.satelliteName == a.satelliteName && r.filters == a.filters
  {
    a.(sourceGroup := "")
  }

  /** The retried search posts the first query without its source group. */
  lemma SearchRetryDropsSourceGroup(a: SearchArgs)
    ensures SearchQuery(RetryArgs(a)) == SearchQuery(a) - {"sourceGroup"}
    ensures "sourceGroup" !in SearchQuery(RetryArgs(a))
  {
    var q, r := SearchQuery(a), SearchQuery(RetryArgs(a));
    assert r.Keys == q.Keys - {"sourceGroup"};
  }

  // ---------------------------------------------------------------------
  // Download URL

  datatype UrlCheck = UrlOk(url: string) | MissingKey | NoDownloadUrl

  /** The checks `download_request` makes before any request:
      `product['downloadUrl']` raises KeyError when the key is missing, and
      a falsy value raises AttributeError. */
  function DownloadUrl(p: Product): (r: UrlCheck)
    ensures r.UrlOk? <==> HasUrlKey(p) && p.downloadUrl.url != ""
    ensures r.UrlOk? ==> r.url == p.downloadUrl.url
    ensures r == MissingKey <==> !HasUrlKey(p)
  {
    match p.downloadUrl
    case Absent => MissingKey
    case Present(url) => if url == "" then NoDownloadUrl else UrlOk(url)
  }

  /** A product promoted by the request poller always has a usable URL, but
      one added with an empty `downloadUrl` goes straight to the ready queue
      and then fails the check, so its download raises. */
  lemma EmptyUrlIsQueuedButNotDownloadable(sid: string, url: string, s: Engine.EngineState,
                                          request: (nat, Product) -> Engine.RequestAnswer)
    ensures url != "" ==> DownloadUrl(SetUrl(Product(sid, Absent), url)) == UrlOk(url)
    ensures var p := Product(sid, Present(""));
      Engine.Add(s, [p], request) == Engine.AddResult(s.(ready := s.ready + [p]), false) &&
      DownloadUrl(p) == NoDownloadUrl
  {
    var p := Product(sid, Present(""));
    assert [p][1..] == [];
  }

  // ---------------------------------------------------------------------
  // Login and token expiry

  /** The class-level `headers` dictionary: one object shared by every
      client. Only its `Authorization` entry ever changes. */
  class Headers {
    const contentType: string
    var authorization: Option<string>

    constructor ()
      ensures contentType == "application/json" && authorization == None
    {
      contentType := "application/json";
      authorization := None;
    }
  }

  /** The answer of the authentication endpoint: a token valid until a time
      (minutes), or an HTTPError. */
  datatype AuthAnswer = Authenticated(token: string, validUntil: int) | AuthRejected(error: HttpError)

  datatype LoginOutcome = TokenKept | LoggedIn | BlankCredentials | LoginRaised(error: HttpError)

  /** The token fields of a client and the shared Authorization header. */
  datatype Session = Session(token: Option<string>, tokenTime: Option<int>, authorization: Option<string>)

  /** `login()` at time `now`. The early return fires only when a token is
      held and the stored expiry time has already passed, as the comparison
      is written. Otherwise blank credentials raise ValueError before any
      request, with nothing changed. A successful login stores the token, an
      expiry five minutes before `validUntil`, and the header
      "Token <token>". A rejection raises and changes nothing. */
  function LoginStep(c: Session, username: string, password: string, now: int, auth: AuthAnswer): (r: (Session, LoginOutcome))
    ensures r.1 == TokenKept <==> Truthy(c.token) && c.tokenTime.Some? && now > c.tokenTime.value
    ensures r.1 == BlankCredentials <==>
      !(Truthy(c.token) && c.tokenTime.Some? && now > c.tokenTime.value) && (username == "" || password == "")
    ensures r.1 == LoggedIn ==>
      auth.Authenticated? && r.0 == Session(Some(auth.token), Some(auth.validUntil - 5), Some("Token " + auth.token))
    ensures r.1.LoginRaised? ==> auth == AuthRejected(r.1.error)
    ensures r.1 != LoggedIn ==> r.0 == c
  {
    if Truthy(c.token) && c.tokenTime.Some? && now > c.tokenTime.value then (c, TokenKept)
    else if username == "" || password == "" then (c, BlankCredentials)
    else
      match auth
      case Authenticated(token, validUntil) =>
        (Session(Some(token), Some(validUntil - 5), Some("Token " + token)), LoggedIn)
      case AuthRejected(e) => (c, LoginRaised(e))
  }

  /** The comparison as written: right after logging in with a token that is
      still valid (now at most its stored expiry), the next login does not
      reuse it but authenticates again; only an expired token is kept. */
  lemma TokenReuseIsInverted(c: Session, username: string, password: string, now: int, later: int,
                             token: string, validUntil: int, auth: AuthAnswer)
    requires token != "" && username != "" && password != ""
    requires LoginStep(c, username, password, now, Authenticated(token, validUntil)).1 == LoggedIn
    ensures var c' := LoginStep(c, username, password, now, Authenticated(token, validUntil)).0;
      (later <= validUntil - 5 ==> LoginStep(c', username, password, later, auth).1 != TokenKept) &&
      (later > validUntil - 5 ==> LoginStep(c', username, password, later, auth).1 == TokenKept)
  {
  }

  datatype HandleOutcome = Recovered | Reraised(error: HttpError) | ReloginFailed(outcome: LoginOutcome)

  /** `_error_handling(e)`: on a token error the token is dropped and the
      client logs in again, and a failed login raises its own error (the
      blank-credential `ValueError` or the authentication `HTTPError`), never
      the original one; any other error is raised again, unchanged. */
  function ErrorStep(c: Session, e: HttpError, username: string, password: string, now: int, auth: AuthAnswer): (r: (Session, HandleOutcome))
    ensures !IsTokenError(e) ==> r == (c, Reraised(e))
    ensures r.1 == Recovered <==> IsTokenError(e) && username != "" && password != "" && auth.Authenticated?
    ensures r.1 == Recovered ==> r.0 == Session(Some(auth.token), Some(auth.validUntil - 5), Some("Token " + auth.token))
    ensures IsTokenError(e) && r.1 != Recovered ==> r.0 == c.(token := None)
    ensures IsTokenError(e) ==> !r.1.Reraised?
    ensures IsTokenError(e) && (username == "" || password == "") ==> r.1 == ReloginFailed(BlankCredentials)
    ensures IsTokenError(e) && username != "" && password != "" && auth.AuthRejected? ==>
      r.1 == ReloginFailed(LoginRaised(auth.error))
  {
    if IsTokenError(e) then
      var (c', o) := LoginStep(c.(token := None), username, password, now, auth);
      if o == LoggedIn then (c', Recovered) else (c', ReloginFailed(o))
    else (c, Reraised(e))
  }

  /** A client object: its credentials, its token fields and the shared
      headers. */
  class Client {
    const username: string
    const password: string
    var token: Option<string>
    var tokenTime: Option<int>
    const headers: Headers

    function Current(): Session
      reads this, headers
    {
      Session(token, tokenTime, headers.authorization)
    }

    /** `__init__` stores the credentials; its call to `login` is a
        separate `Login` call here. */
    constructor (username: string, password: string, headers: Headers)
      ensures this.username == username && this.password == password && this.headers == headers
      ensures token.None? && tokenTime.None?
    {
      this.username, this.password := username, password;
      token, tokenTime := None, None;
      this.headers := headers;
    }

    /** `login()`: updates this client's token fields and the header shared
        with every other client. */
    method Login(now: int, auth: AuthAnswer) returns (outcome: LoginOutcome)
      modifies this, headers
      ensures (Current(), outcome) == LoginStep(old(Current()), username, password, now, auth)
    {
      if Truthy(token) && tokenTime.Some? && now > tokenTime.value {
        return TokenKept;
      }
      if username == "" || password == "" {
        return BlankCredentials;
      }
      match auth
      case AuthRejected(e) =>
        outcome := LoginRaised(e);
      case Authenticated(t, validUntil) =>
        token := Some(t);
        headers.authorization := Some("Token " + t);
        tokenTime := Some(validUntil - 5);
        outcome := LoggedIn;
    }

    /** `_error_handling(error)` */
    method HandleError(e: HttpError, now: int, auth: AuthAnswer) returns (outcome: HandleOutcome)
      modifies this, headers
      ensures (Current(), outcome) == ErrorStep(old(Current()), e, username, password, now, auth)
    {
      if IsTokenError(e) {
        token := None;
        var o := Login(now, auth);
        outcome := if o == LoggedIn then Recovered else ReloginFailed(o);
      } else {
        outcome := Reraised(e);
      }
    }
  }

  // ---------------------------------------------------------------------
  // Retry policy

  /** The fate of one HTTP attempt: an answer, or an HTTPError together with
      whether `_error_handling` returned True for it (it is a token error
      and logging in again succeeded). */
  datatype Attempt<T> = Answered(value: T) | Failed(error: HttpError, recovered: bool)

  datatype CallResult<T> = Returned(value: T) | ReturnedNone | Raised(error: HttpError) | LoginRaisedInHandler
  datatype CallOutcome<T> = CallOutcome(result: CallResult<T>, attempts: nat)

  /** The shape shared by `search`, `search_product`, `download_request`,
      `request` and `is_request_ready`: try once; on an error call
      `_error_handling`, and when it returns True and `_retry` is set, call
      again with `_retry=False`. When it returns True on that second call the
      function falls off its end and returns None. `attempt(k)` is the fate
      of the k-th attempt. */
  function Call<T>(retry: bool, k: nat, attempt: nat -> Attempt<T>): (r: CallOutcome<T>)
    ensures 1 <= r.attempts <= (if retry then 2 else 1)
    ensures r.result.ReturnedNone? ==>
      attempt(k + r.attempts - 1).Failed? && IsTokenError(attempt(k + r.attempts - 1).error) && attempt(k + r.attempts - 1).recovered
    ensures r.result.LoginRaisedInHandler? ==>
      attempt(k + r.attempts - 1).Failed? && IsTokenError(attempt(k + r.attempts - 1).error) && !attempt(k + r.attempts - 1).recovered
    ensures r.result.Raised? ==>
      !IsTokenError(r.result.error) && attempt(k + r.attempts - 1).Failed? && attempt(k + r.attempts - 1).error == r.result.error
    ensures r.result.Returned? ==> attempt(k + r.attempts - 1) == Answered(r.result.value)
    ensures r.attempts == 2 ==> attempt(k).Failed? && IsTokenError(attempt(k).error) && attempt(k).recovered
    decreases retry
  {
    match attempt(k)
    case Answered(v) => CallOutcome(Returned(v), 1)
    case Failed(e, recovered) =>
      if !IsTokenError(e) then CallOutcome(Raised(e), 1)
      else if !recovered then CallOutcome(LoginRaisedInHandler, 1)
      else if retry then
        var r := Call(false, k + 1, attempt);
        CallOutcome(r.result, r.attempts + 1)
      else CallOutcome(ReturnedNone, 1)
  }

  /** A recoverable error on the first attempt is retried exactly once; a
      recoverable error on that retry yields None; any other error is raised
      at once without a retry. */
  lemma RetryOnce<T>(k: nat, attempt: nat -> Attempt<T>)
    ensures attempt(k).Failed? && IsTokenError(attempt(k).error) && attempt(k).recovered ==>
      Call(true, k, attempt) == (var r := Call(false, k + 1, attempt); CallOutcome(r.result, 2))
    ensures attempt(k).Failed? && IsTokenError(attempt(k).error) && attempt(k).recovered &&
            attempt(k + 1).Failed? && IsTokenError(attempt(k + 1).error) && attempt(k + 1).recovered ==>
      Call(true, k, attempt) == CallOutcome(ReturnedNone, 2)
    ensures attempt(k).Failed? && !IsTokenError(attempt(k).error) ==>
      Call(true, k, attempt) == CallOutcome(Raised(attempt(k).error), 1)
    ensures attempt(k).Answered? ==> Call(true, k, attempt) == CallOutcome(Returned(attempt(k).value), 1)
  {
  }
}

=== FILE: sedas_bulk_download.dfy ===
/**
  SeDASBulkDownload as it stands in the sedas_pyapi package: the engine with
  an optional completion queue. Each background thread's loop body is one
  method call; the archive client is passed to each call as an oracle.
 */
module SedasBulkDownload {
  import opened Products
  import opened Engine

  class BulkDownload {
    var readyQueue: seq<Product>                // _pending_download
    var pendingRequestIds: seq<string>          // _pending_request_ids
    var pendingProducts: map<string, Product>   // _pending_products
    var currentDownloads: int                   // _current_downloads
    var shutDown: bool                          // _shut_down
    var started: bool                           // _requested_thread is set
    var doneQueue: Option<seq<Completion>>      // _done_queue
    var requested: seq<Product>                 // calls made to client.request
    const prefix: string                        // _prefix
    const parallel: nat                         // number of download threads

    function State(): EngineState
      reads this
    {
      EngineState(readyQueue, pendingRequestIds, pendingProducts, currentDownloads,
                  shutDown, started, doneQueue, prefix, requested)
    }

    /** `__init__` sets up empty bookkeeping and calls `start`. */
    constructor (downloadPrefix: string, parallel: nat, doneQueue: Option<seq<Completion>>)
      ensures State() == Constructed(downloadPrefix, doneQueue)
      ensures this.parallel == parallel
    {
      readyQueue, pendingRequestIds, pendingProducts := [], [], map[];
      currentDownloads, shutDown, started := 0, false, false;
      this.doneQueue, requested := doneQueue, [];
      prefix, this.parallel := downloadPrefix, parallel;
      new;
      var _ := Start();
    }

    /** `start`: raises ChildProcessError once the threads exist. */
    method Start() returns (raised: bool)
      modifies this
      ensures StartResult(State(), raised) == Engine.Start(old(State()))
    {
      if started {
        return true;
      }
      started := true;
      raised := false;
    }

    /** `shutdown`: sets the flag and nothing else. */
    method Shutdown()
      modifies this`shutDown
      ensures State() == Engine.Shutdown(old(State()))
    {
      shutDown := true;
    }

    /** `is_done` */
    method IsDone() returns (r: bool)
      ensures r <==> readyQueue == [] && pendingRequestIds == [] && currentDownloads == 0
      ensures r == Engine.IsDone(State())
    {
      r := readyQueue == [] && |pendingRequestIds| == 0 && currentDownloads == 0;
    }

    /** `add(search_results)`, with `request` answering the k-th call to
        `client.request`. Returns true when a request raised. */
    method Add(searchResults: seq<Product>, request: (nat, Product) -> RequestAnswer) returns (raised: bool)
      modifies this
      ensures AddResult(State(), raised) == Engine.Add(old(State()), searchResults, request)
    {
      var k := 0;
      while k < |searchResults|
        invariant 0 <= k <= |searchResults|
        invariant Engine.Add(State(), searchResults[k..], request) == Engine.Add(old(State()), searchResults, request)
      {
        var product := searchResults[k];
        assert searchResults[k..][0] == product && searchResults[k..][1..] == searchResults[k + 1..];
        if HasUrlKey(product) {
          readyQueue := readyQueue + [product];
        } else if !AlreadyRequested(product, pendingProducts) {
          var answer := request(|requested|, product);
          requested := requested + [product];
          match answer
          case Raised =>
            return true;
          case Issued(requestId) =>
            pendingRequestIds := pendingRequestIds + [requestId];
            pendingProducts := pendingProducts[requestId := product];
        }
        k := k + 1;
      }
      raised := false;
    }

    /** One round of the `_requests` thread: unless the flag is set, check
        every pending id by list position and promote the ready ones. */
    method Requests(check: string -> Option<string>) returns (outcome: PollOutcome)
      modifies this
      ensures SweepResult(State(), outcome) == Engine.Poll(old(State()), check)
    {
      if shutDown {
        return PollerStopped;
      }
      var i: nat := 0;
      while i < |pendingRequestIds|
        invariant Engine.SweepFrom(State(), i, check) == Engine.Poll(old(State()), check)
        decreases |pendingRequestIds| - i
      {
        var requestId := pendingRequestIds[i];
        if requestId !in pendingProducts {
          return SweepCrashed;
        }
        var product := pendingProducts[requestId];
        var downloadUrl := check(requestId);
        if Truthy(downloadUrl) {
          product := SetUrl(product, downloadUrl.value);
          readyQueue := readyQueue + [product];
          pendingProducts := pendingProducts - {requestId};
          pendingRequestIds := RemoveFirst(pendingRequestIds, requestId);
        }
        i := i + 1;
      }
      outcome := SweepFinished;
    }

    /** One round of a `_downloads` thread, with `succeeds` saying whether
        `client.download` returned. */
    method Downloads(succeeds: bool) returns (outcome: WorkerOutcome)
      modifies this
      ensures WorkerResult(State(), outcome) == Engine.WorkerStep(old(State()), succeeds)
    {
      if shutDown {
        return WorkerStopped;
      }
      if readyQueue == [] {
        return WorkerBlocked;
      }
      ghost var before := State();
      WorkerStepEffects(before, succeeds);
      var pending := readyQueue[0];
      readyQueue := readyQueue[1..];
      currentDownloads := currentDownloads + 1;
      var name := TargetPath(prefix, pending.supplierId);
      ghost var busy := before.(ready := before.ready[1..], current := before.current + 1);
      assert State() == busy;
      if !succeeds {
        return DownloadRaised(name);
      }
      currentDownloads := currentDownloads - 1;
      if doneQueue.Some? {
        doneQueue := Some(doneQueue.value + [Completion(pending, name)]);
      }
      assert doneQueue == Notify(before.done, Completion(pending, name));
      outcome := Downloaded(name);
    }
  }
}
